=== FILE: README.md ===
# ckanext-query-dois in Dafny

A model of the decision and string-shaping core of the CKAN extension
`ckanext-query-dois`. The extension mints a DataCite DOI for a datastore query
so that the exact data the query returned can be cited and retrieved again.

The model covers:

- **`lib/doi.py`**:
  - checking the configured prefix;
  - generating a fresh `prefix/qd.xxxxxxxx` DOI under a budget of five DataCite errors;
  - looking up an identical earlier query;
  - `mint_doi` itself: the single-resource guard, the early return on a cache hit, then
    DataCite metadata, the landing URL and the database insert, in that order.
- **`logic/utils.py`**: validating requested resources against the public
  datastore resources, and assembling the resource → rounded version map.
- **`lib/stats.py`**: anonymising an email address (lower-casing, the domain,
  the bcrypt salt built from base64 of the zero-filled domain) and the stat
  row `record_stat` saves.
- **`routes/_helpers.py`**:
  - the de-duplicated author list;
  - the parameter dictionary of `encode_params`: version stripping and injection, extras
    overriding params, and the `field:value|…` filters format.
- **`controllers/landing_page.py`**:
  - the truncating, sorted author line of `_get_authors`;
  - the DOI composition, the 404 and the record lookup of `get`.
  - `_encode_params` (lines 70-118) is a verbatim copy of `encode_params`, so
    `RouteHelpers.EncodeParams` models both.
- **`helpers.py`**: `render_filter_value`, the "time ago" buckets and the
  citation text.
- **`model.py`**: the `query_doi` and `query_doi_stat` rows, the projections
  of `resources_and_versions`, `on_resource`, and the column constraints.

Everything outside the process is an input. That covers the configuration,
the clock, `random.choice`, DataCite's answers, bcrypt, `json.dumps`,
`url_for`, jinja's `do_truncate`, the rounding action and the catalogue of
public resources. Each is either a value or a function parameter. Both
database tables are sequences in id order. A Python dict is an association
list in insertion order (module `Assoc`).

Modules:

| file | module | models |
|---|---|---|
| wrappers.dfy | `Wrappers` | `Option` and `Result` |
| text.dfy | `Text` | split/join, `lower`, `zfill`, integer text, code-point order |
| assoc.dfy | `Assoc` | dicts as association lists |
| query_params.dfy | `QueryParams` | the stored query dictionary |
| model.dfy | `Model` | model.py |
| doi.dfy | `Doi` | lib/doi.py |
| logic_utils.dfy | `LogicUtils` | logic/utils.py |
| stats.dfy | `Stats` | lib/stats.py |
| route_helpers.dfy | `RouteHelpers` | routes/_helpers.py |
| landing_page.dfy | `LandingPage` | controllers/landing_page.py |
| helpers.dfy | `Helpers` | helpers.py |

Where the extension's own documentation and its code differ, the model
follows the code:

- The email domain is the text after the *first* `@`, because the code uses
  `index`.
- No uniqueness constraint covers the (query hash, resource versions) pair.
  Only `doi` is unique. `Doi.MintKeepsTableUnique` proves that minting itself
  never adds a second record for a recorded query.
- The salt comment speaks of filling the domain's right side with dots.
  `zfill` pads the left side with `0`.

## Model

| member | source | states |
|---|---|---|
| `Doi.GetPrefix` | ckanext/query_dois/lib/doi.py:42-52 | an unset prefix and the retired test prefix `10.5072` are errors; any other configured prefix is returned unchanged |
| `Doi.CandidateDoi` | ckanext/query_dois/lib/doi.py:83-92 | a candidate is `prefix/qd.` followed by 8 characters from a–z0–9, so it is 12 characters longer than the prefix |
| `Doi.CandidateShapeExact` | ckanext/query_dois/lib/doi.py:88-92 | a string has the candidate shape exactly when some 8-character draw produces it |
| `Doi.CandidateInjective` | ckanext/query_dois/lib/doi.py:90-92 | different draws give different DOIs |
| `Doi.GenerateFrom` | ckanext/query_dois/lib/doi.py:85-115 | the retry loop uses at least one candidate for a success and never more than it is given; it ends in `GenerationFailed` when the attempts run out and in `OutOfCandidates` only after using every candidate |
| `Doi.GenerateFromAccepted` | ckanext/query_dois/lib/doi.py:94-113 | a generated DOI is the DOI of the last candidate used, and that candidate is absent from the table and unknown to DataCite |
| `Doi.GenerateAccounting` | ckanext/query_dois/lib/doi.py:94-115 | only DataCite errors spend an attempt; the result is the first accepted candidate, and generation fails exactly when five errors occur before any acceptance |
| `Doi.GenerateStep` | ckanext/query_dois/lib/doi.py:94-115 | one pass of the loop: an accepted candidate ends it, a DataCite error spends an attempt, and a collision moves on with the attempts left |
| `Doi.GenerateDoi` | ckanext/query_dois/lib/doi.py:71-115 | the `while attempts > 0` loop returns what the recursive definition returns, and a DOI it returns is free locally and was not found at DataCite |
| `Doi.CollisionIsFree` | ckanext/query_dois/lib/doi.py:94-102 | a candidate already in the table or registered at DataCite is skipped without spending an attempt |
| `Doi.FindExistingDoi` | ckanext/query_dois/lib/doi.py:127-129 | returns the first record whose resource versions and query hash both match, and nothing when none does |
| `Doi.FindExistingAfterAppend` | ckanext/query_dois/lib/doi.py:118-129 | appending a record for the query makes the lookup find a match for it |
| `Doi.SplitDoi` | ckanext/query_dois/lib/doi.py:172 | `doi.split('/')` unpacks only when there are exactly two parts, and the parts rejoin to the DOI |
| `Doi.SplitCandidate` | ckanext/query_dois/lib/doi.py:172-174 | a generated DOI splits into the prefix and the `qd.` identifier when the prefix has no `/` |
| `Doi.SiteBase` | ckanext/query_dois/lib/doi.py:175-177 | exactly one trailing `/` is stripped from the site URL; an empty site URL is an error |
| `Doi.LandingUrl` | ckanext/query_dois/lib/doi.py:172-179 | the URL handed to `doi_post` exists exactly when the DOI splits into two parts at `/` and the site URL is non-empty, and is then the stripped site URL followed by the landing path of the two parts; otherwise the error of the first failing step |
| `Doi.LookupCalls` | ckanext/query_dois/lib/doi.py:94-105 | the only DataCite calls during generation are `metadata_get` lookups |
| `Doi.LookupCallsExact` | ckanext/query_dois/lib/doi.py:94-105 | a DOI is looked up at DataCite exactly when it is the DOI of a used candidate that is not already in the table, and there is at most one lookup per candidate |
| `Doi.Register` | ckanext/query_dois/lib/doi.py:169-204 | metadata is posted first, then the DOI is bound to its URL, then the row is inserted; registration succeeds exactly when both posts succeed, the landing URL exists and the DOI is not yet stored; a failure inserts nothing and leaves the table unchanged |
| `Doi.RegisterFailures` | ckanext/query_dois/lib/doi.py:169-204 | a failed registration reports the first step that failed: the metadata post, the landing URL, then the DOI post |
| `Doi.RegisterNewMint` | ckanext/query_dois/lib/doi.py:233-244 | registering the DOI `generate_doi` returned, after the client and the lookups of the candidates it used, records exactly the new row, appended to the table, with exactly those calls followed by metadata, DOI and insert; a failed one calls no insert |
| `Doi.RegisterFailureAddsNoInsert` | ckanext/query_dois/lib/doi.py:169-204 | a failed registration adds no insert to the calls made before it |
| `Doi.MintNew` | ckanext/query_dois/lib/doi.py:233-244 | a fresh mint appends a record for `{rid: rounded}` under exactly the DOI `generate_doi` returns, carrying the query, hash, requested version, count and timestamp; the calls are the client, the DataCite lookups of the candidates generation used, then metadata, DOI and insert; a failed search reports its error after the client and the lookups; once a DOI is found the outcome is the registration's, so a failed post reports that step with the DataCite calls already made; on failure nothing is inserted |
| `Doi.MintNewSucceeds` | ckanext/query_dois/lib/doi.py:233-244 | a mint that found no earlier record succeeds exactly when the prefix is usable, a free DOI is found, both DataCite posts succeed and the landing URL exists; a bad prefix fails with no calls, and a failed search is reported as such |
| `Doi.Mint` | ckanext/query_dois/lib/doi.py:207-244 | more or fewer than one resource fails before any lookup; a cache hit (the rounded version may be `None`) returns `(False, existing)` with no calls; on a miss the outcome is the fresh mint's, error and calls included, and it succeeds exactly when the prefix, the DOI search, both posts and the landing URL do, recording a new row under the DOI `generate_doi` returned; a failure never changes the table |
| `Doi.MintIdempotent` | ckanext/query_dois/lib/doi.py:229-231 | after a successful mint, minting the same query again returns the same record, with no new row and no calls |
| `Doi.MintKeepsTableUnique` | ckanext/query_dois/lib/doi.py:229-244 | minting preserves "one record per query" and "one record per DOI" |
| `LogicUtils.GetPublicDatastoreResources` | ckanext/query_dois/logic/utils.py:17-44 | exactly the active public datastore resources, within `only` when `only` is non-empty |
| `LogicUtils.GetInvalidResources` | ckanext/query_dois/logic/utils.py:47-55 | exactly the requested ids that are not public datastore resources |
| `LogicUtils.Requested` | ckanext/query_dois/logic/utils.py:60-63 | the requested ids are the map's keys when a map is given, else the list, else none |
| `LogicUtils.Extract` | ckanext/query_dois/logic/utils.py:58-95 | any non-public requested id is an error, whose value holds exactly those ids, with no rounding; no public resource at all is an error; otherwise each resource is rounded at its own or the common version and the ones that round to `None` are omitted |
| `LogicUtils.EmptyRequestCoversAllPublic` | ckanext/query_dois/logic/utils.py:33-34 | requesting no resources means every public datastore resource, because an empty `only` does not restrict |
| `LogicUtils.AsWrittenMessageDropsIds` | ckanext/query_dois/logic/utils.py:69-71 | as written, the "not public" message for `res-a` is the same as the one for `res-b`, while the corrected message tells them apart |
| `LogicUtils.MessageListsEveryId` | ckanext/query_dois/logic/utils.py:69-71 | the corrected message names every invalid resource |
| `Stats.Base64` | ckanext/query_dois/lib/stats.py:35 | the base64 text of `n` bytes has `4 * ceil(n / 3)` characters |
| `Stats.Base64Chars` | ckanext/query_dois/lib/stats.py:35 | each character of the base64 text is from the alphabet of RFC 4648 or `=`, and every character of the complete three-byte groups is from the alphabet |
| `Stats.Base64RoundTrip` | ckanext/query_dois/lib/stats.py:35 | decoding the base64 text, with `=` padding only at the end, gives back exactly the bytes encoded |
| `Stats.Domain` | ckanext/query_dois/lib/stats.py:24-28 | the text after the first `@`, or the whole address when there is none |
| `Stats.SaltDigits` | ckanext/query_dois/lib/stats.py:35 | the base64 text of 18 or more bytes has at least 24 characters, and its first 22 are from the alphabet |
| `Stats.Salt` | ckanext/query_dois/lib/stats.py:30-35 | `$2b$12$` followed by the first 22 base64 characters of the zero-filled domain, 29 characters in all, all of them from the alphabet after the prefix; a non-ASCII domain is an error |
| `Stats.AnonymizeEmail` | ckanext/query_dois/lib/stats.py:13-36 | returns bcrypt of the lower-cased address under the domain's salt, together with the domain |
| `Stats.AnonymizeIgnoresCase` | ckanext/query_dois/lib/stats.py:22-36 | addresses that differ only in letter case anonymise identically |
| `Stats.SameDomainSameSalt` | ckanext/query_dois/lib/stats.py:35 | two addresses with the same domain share a salt |
| `Stats.AsciiDomainSalt` | ckanext/query_dois/lib/stats.py:30-35 | every ASCII domain yields a salt of 29 characters |
| `Stats.RecordStat` | ckanext/query_dois/lib/stats.py:39-57 | the saved stat carries the record's DOI, the action and the anonymised pair, and adds one stat for that DOI |
| `Model.ProjectionsCorrespond` | ckanext/query_dois/model.py:64-68 | the id list and the version list have equal length and pair up position by position |
| `Model.OnResource` | ckanext/query_dois/model.py:70-78 | holds exactly when the resource is a key of `resources_and_versions` |
| `Model.InsertQueryDoi` | ckanext/query_dois/model.py:20 | a row is refused exactly when its DOI is already stored; otherwise it is appended and the DOIs stay unique |
| `Model.InsertStat` | ckanext/query_dois/model.py:47 | stats are not unique per DOI: every save adds one for its DOI and leaves the other DOIs' counts alone |
| `Model.QueryDoiConstraints` | ckanext/query_dois/model.py:15-38 | `doi`, `resources_and_versions`, `timestamp`, `query`, `query_hash` and `count` are required alongside the `id` key, and `doi` is the only unique column besides `id` |
| `Model.QueryDoiStatConstraints` | ckanext/query_dois/model.py:42-55 | a stat requires only its DOI and timestamp alongside the `id` key, and no column besides `id` is unique |
| `Model.FindByDoi` | ckanext/query_dois/controllers/landing_page.py:27-35 | finds the first row with the DOI, and nothing exactly when no row has it |
| `RouteHelpers.AuthorPieces` | ckanext/query_dois/routes/_helpers.py:56-63 | splits on `;` if present, else on `,`, else keeps the whole value; the untrimmed pieces rejoin to the value |
| `RouteHelpers.GetAuthors` | ckanext/query_dois/routes/_helpers.py:41-65 | every piece once, no duplicates, ordered by first occurrence across the packages |
| `RouteHelpers.GatherSpec` | ckanext/query_dois/routes/_helpers.py:85-95 | the first loop drops `version`, keeps the last value given for every other key and removes `__version__` from `filters` when no version is asked for |
| `RouteHelpers.ExtrasOverride` | ckanext/query_dois/routes/_helpers.py:83-93 | a key given in the extras takes the extras' value; any other keeps the params' value |
| `RouteHelpers.Collect` | ckanext/query_dois/routes/_helpers.py:82-97 | no `version` key; without a version no `__version__` filter; with a version `filters.__version__` is that version, with `filters` created if missing and its other fields kept; a non-dict `filters` is an error |
| `RouteHelpers.Format` | ckanext/query_dois/routes/_helpers.py:100-116 | keeps the keys; dict values become JSON or the `\|`-joined filter parts, and other values are unchanged |
| `RouteHelpers.FilterParts` | ckanext/query_dois/routes/_helpers.py:108-113 | one `field:value` part per list element, with a scalar counted as a one-element list |
| `RouteHelpers.EncodeParams` | ckanext/query_dois/routes/_helpers.py:68-116 | fails exactly when collecting the parameters fails, and otherwise is the collected dictionary with each value formatted; so: no `version`; later values override earlier ones; without a version the filters lose `__version__`; with a version the filters text contains `__version__:<version>` |
| `RouteHelpers.FilterTextRoundTrip` | ckanext/query_dois/routes/_helpers.py:108-113 | splitting the filters text on `\|` and each part at its first `:` gives back the field/value pairs, when fields hold no `:` or `\|` and values no `\|` |
| `LandingPage.Label` | ckanext/query_dois/controllers/landing_page.py:53-67 | an author of at most 50 characters appears verbatim; a longer one appears as its short form followed by an `et al.` abbr titled with the full author |
| `LandingPage.ShortenedNames` | ckanext/query_dois/controllers/landing_page.py:56-60 | a long author is split on `;` if present, else `,`, and the short form holds exactly the first four names |
| `LandingPage.SortUnique` | ckanext/query_dois/controllers/landing_page.py:68 | `sorted(set(...))`: strictly increasing, with the same elements |
| `LandingPage.SortedUnique` | ckanext/query_dois/controllers/landing_page.py:68 | a set has only one strictly sorted arrangement |
| `LandingPage.AuthorLabels` | ckanext/query_dois/controllers/landing_page.py:50-68 | the author line lists each package's label once, in sorted order |
| `LandingPage.AuthorsText` | ckanext/query_dois/controllers/landing_page.py:68 | the author line is empty for no packages, and every package's label occurs in it |
| `LandingPage.AuthorsTextOrderFree` | ckanext/query_dois/controllers/landing_page.py:50-68 | the author line depends only on which authors occur, not on package order or repeats |
| `LandingPage.GetPage` | ckanext/query_dois/controllers/landing_page.py:200-228 | the DOI is `data_centre/identifier`; 404 exactly when no record has it; otherwise the first such record, its first resource and version, and the package DOI only when `doi_status` is set |
| `LandingPage.MintedDoiResolves` | ckanext/query_dois/controllers/landing_page.py:208-215 | the data centre and identifier a fresh mint registers its landing URL under bring up that very record |
| `Helpers.RenderFilterValue` | ckanext/query_dois/helpers.py:18-30 | every field except `__geo__` is shown unchanged; `__geo__` shows the GeoJSON type, or fails when there is none |
| `Helpers.Bucket` | ckanext/query_dois/helpers.py:75-76 | picks the first resolution whose limit exceeds the elapsed time, with the year row catching the rest |
| `Helpers.FloorDiv` | ckanext/query_dois/helpers.py:77 | the quotient of two naturals is the largest `q` with `q * b <= a` |
| `Helpers.TruncDiv` | ckanext/query_dois/helpers.py:77 | `int(a / b)` truncates toward zero, for negative times too |
| `Helpers.TimeAgoValueRange` | ckanext/query_dois/helpers.py:55-79 | the number shown is at least 1 in every row after seconds, and below the next row's threshold (60, 60, 24, 7, 4, 14) |
| `Helpers.SeceondShown` | ckanext/query_dois/helpers.py:56 | as written, five seconds read "5 seceonds ago" |
| `Helpers.UnderAMinuteInSeconds` | ckanext/query_dois/helpers.py:55-79 | with the corrected table, an elapsed time under a minute reads `<n> second ago` or `<n> seconds ago`, `n` being the whole seconds |
| `Helpers.AsWrittenUnderAMinute` | ckanext/query_dois/helpers.py:55-79 | as written, every elapsed time under a minute reads `<n> seceond ago` or `<n> seceonds ago` |
| `Helpers.AsWrittenAgreesFromAMinute` | ckanext/query_dois/helpers.py:55-79 | the shipped and the corrected tables pick the same row for every time, and from a minute on the shipped description is the corrected one |
| `Helpers.DescribeWords` | ckanext/query_dois/helpers.py:74-79 | a description is three words: the value, the unit of the row the time falls in with an `s` exactly when the value is above one, and `ago` |
| `Helpers.CitationLayout` | ckanext/query_dois/helpers.py:118-144 | the citation is the head (publisher, year, resource name, creation time), then the query DOI part, then the package DOI part exactly when there is one, with nothing else: its length is the sum of the three |
| `Helpers.CitationText` | ckanext/query_dois/helpers.py:94-144 | starts with the publisher (the argument, else the configured one), the year, `Data Portal Query on "<resource name>" created at <created>`; ` PID <query link>. Subset of "<title>" (dataset)` follows right after; ends with ` PID <package link>.` exactly when a package DOI is given; nothing else is in between |
| `Helpers.CitationHtmlOnlyLinks` | ckanext/query_dois/helpers.py:136-144 | for every `link_to`, the HTML and the plain citation are the one template filled in with the same text, the HTML one with `link_to` of the two DOI URLs and the plain one with the bare URLs |

## Left out

- Doi.GenerateDoi: the candidates are a finite input sequence. If it runs out before the
  loop ends, the result is `OutOfCandidates`. The real loop would keep drawing
  forever while collisions continue.
- Doi.Mint: the DataCite metadata document is left out (creator, title
  template, publisher, publication year and the schema 4.1 validation). DataCite's answers are
  booleans and lookup outcomes. `get_resource_and_package` is assumed to succeed.
  The `datetime.now()` timestamp is an input. `get_prefix` is read once, not once per
  attempt (the configuration does not change in between).
- Doi.Mint: no locking, as in the source; concurrent mints are not modelled.
- Doi.FindExistingDoi: `.first()` has no `ORDER BY`, so when several rows match, the
  database may return any of them. The model returns the first in id order. Several rows can
  match: nothing makes (query hash, resource versions) unique, and mints are not locked.
- Model.FindByDoi: the same `.first()` without `ORDER BY`. `doi` is unique, so at most one
  row can match and the choice does not arise.
- LogicUtils.Extract: the requested versions in `resources_and_versions` are integers. A
  request carrying a `null` version, which the code would pass unchecked to the rounding
  action, cannot be expressed.
- LogicUtils.Extract: the error value keeps the set of invalid ids. The `ValidationError`
  the code raises names none of them (see Findings). The model's error holds what the
  corrected message lists, not the text the program shows.
- RouteHelpers.EncodeParams: stops at the dictionary that `urlencode` serialises.
  Percent-encoding and `json.dumps` are not modelled; `dumps` is a parameter.
- RouteHelpers.GetAuthors: Python 2 dict comprehension order is not modelled. The
  pieces of one package are taken in split order, as in Python 3.7 and later.
- Dict iteration order in general is insertion order (Python 3.7 and later).
  Under Python 2 it is hash order. This affects only the order of keys, not which keys or values appear.
- Stats.AnonymizeEmail: bcrypt is the parameter `hashpw`. `lower()` is modelled on
  ASCII letters only. Base64 of a non-ASCII domain is an error, as Python 2's
  implicit ASCII encoding makes it.
- Stats.AnonymizeEmail: `hashpw` is total here. bcrypt accepts only `./A-Za-z0-9` in a
  salt. Standard base64 emits `+` for a byte whose low six bits are `111110` (`>` or `~`) at
  position 2, 5, 8, 11 or 14 of the zero-filled domain. The domain `abc>.example.org` is one
  such case. bcrypt would then raise "Invalid salt"; `Stats.Salt` shows which characters end
  up in the salt.
- Doi.Mint: the multi-resource guard raises `NotImplemented(...)`. `NotImplemented` is not
  callable, so Python raises a `TypeError` there. The model fails at the same point with
  `MultiResourceUnsupported`.
- LandingPage.Label: jinja's `do_truncate` is the parameter `truncate`.
- LandingPage.GetPage: `get_resource_and_package` is a parameter and is assumed to succeed.
  The rerun URLs, the download URL, the download statistics and template rendering
  are not modelled.
- Helpers.TimeAgoValueRange: the elapsed time is whole microseconds, and the
  float division of `total_seconds()` is exact here.
- Helpers.CitationText: the text of the creation datetime is a parameter. So is
  the configured publisher, and `link_to` is the parameter `linkTo`.
- `get_most_recent_dois` and `get_landing_page_url` in helpers.py are not
  modelled. Neither are the `render_*`, `generate_rerun_urls`, `get_download_url`,
  `get_stats`, `create_slugs` and `get_package_and_resource_info` functions of
  routes/_helpers.py. They are CKAN, database and template plumbing.
- lib/query.py (`DatastoreQuery`: query hashing, the requested version, rounding and counts)
  is not part of this model. The hash, the requested version, `get_rounded_version`
  and `get_count` are inputs.
- The rounding algorithm behind the `datastore_get_rounded_version` action is an input function.
- routes/query_doi.py, controllers/stats.py, plugin.py, lib/utils.py, lib/emails.py,
  cli.py and commands.py are not modelled. They are web, database, mail and command-line glue.

## Findings

| source | as written | input that shows it | evidently intended | confidence | as-written member | corrected member |
|---|---|---|---|---|---|---|
| ckanext/query_dois/logic/utils.py:69-71 | `u', '.format(bad_resources)` has no placeholder, so the message always ends in `Invalid resources: , ` | invalid resources `{res-a}` and `{res-b}` give the same message | `u', '.join(bad_resources)`: the message lists the invalid ids | not executed; high | `LogicUtils.AsWrittenMessageDropsIds` | `LogicUtils.MessageListsEveryId` |
| ckanext/query_dois/helpers.py:56 | the first unit of `time_resolutions` is spelled `seceond` | an elapsed time of 5 seconds gives `5 seceonds ago` | `second` | not executed; high | `Helpers.SeceondShown` | `Helpers.UnderAMinuteInSeconds` |

=== FILE: assoc.dfy ===
/** Python dictionaries with string keys, kept as lists of entries in
    insertion order: assigning to an existing key keeps its position,
    a new key goes to the end. */
module Assoc {
  import opened Wrappers

  type Assoc<V> = seq<(string, V)>

  function Keys<V>(d: Assoc<V>): set<string>
  {
    set i | 0 <= i < |d| :: d[i].0
  }

  lemma KeysCons<V>(e: (string, V), rest: Assoc<V>)
    ensures Keys([e] + rest) == {e.0} + Keys(rest)
  {
    var d := [e] + rest;
    assert d[0].0 == e.0;
    forall k | k in Keys(d) ensures k in {e.0} + Keys(rest) {
      var i :| 0 <= i < |d| && d[i].0 == k;
      if i > 0 {
        assert rest[i - 1].0 == k;
      }
    }
    forall k | k in Keys(rest) ensures k in Keys(d) {
      var i :| 0 <= i < |rest| && rest[i].0 == k;
      assert d[i + 1].0 == k;
    }
  }

  predicate DistinctKeys<V>(d: Assoc<V>)
  {
    forall i, j :: 0 <= i < j < |d| ==> d[i].0 != d[j].0
  }

  /** A dictionary with a key in front is well formed exactly when the rest
      is and does not repeat that key. */
  lemma DistinctCons<V>(e: (string, V), rest: Assoc<V>)
    ensures DistinctKeys([e] + rest) <==> DistinctKeys(rest) && e.0 !in Keys(rest)
  {
    var d := [e] + rest;
    KeysCons(e, rest);
    if DistinctKeys(rest) && e.0 !in Keys(rest) {
      forall i, j | 0 <= i < j < |d| ensures d[i].0 != d[j].0 {
        if i == 0 {
          assert d[j].0 == rest[j - 1].0;
        } else {
          assert d[i].0 == rest[i - 1].0 && d[j].0 == rest[j - 1].0;
        }
      }
    }
    if DistinctKeys(d) {
      forall i, j | 0 <= i < j < |rest| ensures rest[i].0 != rest[j].0 {
        assert rest[i].0 == d[i + 1].0 && rest[j].0 == d[j + 1].0;
      }
      forall i | 0 <= i < |rest| ensures rest[i].0 != e.0 {
        assert rest[i].0 == d[i + 1].0 && e.0 == d[0].0;
      }
    }
  }

  /** `d.get(k)`. */
  function Get<V>(d: Assoc<V>, k: string): (r: Option<V>)
    ensures r.None? <==> k !in Keys(d)
  {
    if |d| == 0 then None
    else if d[0].0 == k then Some(d[0].1)
    else Get(d[1..], k)
  }

  /** `d[k] = v`. */
  function Put<V>(d: Assoc<V>, k: string, v: V): (r: Assoc<V>)
    ensures Get(r, k) == Some(v)
    ensures forall j :: j != k ==> Get(r, j) == Get(d, j)
    ensures Keys(r) == Keys(d) + {k}
    ensures DistinctKeys(d) ==> DistinctKeys(r)
  {
    if |d| == 0 then [(k, v)]
    else if d[0].0 == k then
      var r := [(k, v)] + d[1..];
      assert r[1..] == d[1..];
      KeysCons((k, v), d[1..]);
      KeysCons(d[0], d[1..]);
      DistinctCons((k, v), d[1..]);
      DistinctCons(d[0], d[1..]);
      assert d == [d[0]] + d[1..];
      r
    else
      var rest := Put(d[1..], k, v);
      var r := [d[0]] + rest;
      assert r[1..] == rest;
      KeysCons(d[0], rest);
      KeysCons(d[0], d[1..]);
      DistinctCons(d[0], rest);
      DistinctCons(d[0], d[1..]);
      assert d == [d[0]] + d[1..];
      r
  }

  /** `d.pop(k, None)`, keeping only the result dictionary. */
  function Delete<V>(d: Assoc<V>, k: string): (r: Assoc<V>)
    ensures Get(r, k) == None
    ensures forall j :: j != k ==> Get(r, j) == Get(d, j)
    ensures Keys(r) == Keys(d) - {k}
    ensures DistinctKeys(d) ==> DistinctKeys(r)
  {
    if |d| == 0 then []
    else if d[0].0 == k then
      KeysCons(d[0], d[1..]);
      DistinctCons(d[0], d[1..]);
      assert d == [d[0]] + d[1..];
      Delete(d[1..], k)
    else
      var rest := Delete(d[1..], k);
      var r := [d[0]] + rest;
      assert r[1..] == rest;
      KeysCons(d[0], rest);
      KeysCons(d[0], d[1..]);
      DistinctCons(d[0], rest);
      DistinctCons(d[0], d[1..]);
      assert d == [d[0]] + d[1..];
      r
  }
}

=== FILE: doi.dfy ===
/** Minting query DOIs: the configured prefix, the random candidate DOI, the
    collision-checking retry loop, the lookup of an existing DOI for the same
    query, and the mint itself with its DataCite calls and table insert.
    DataCite, the clock, the random source and the datastore query object
    are inputs: their answers are given, not computed. */
module Doi {
  import opened Wrappers
  import opened Model
  import opened QueryParams
  import Text

  /** DataCite's former shared test prefix, now retired. */
  const TestPrefix: string := "10.5072"

  datatype DoiError =
    | PrefixUnset       // TypeError: the prefix is not configured
    | PrefixRetired     // ValueError: the configured prefix is the retired test prefix
    | GenerationFailed  // five DataCite errors while checking candidates
    | OutOfCandidates   // the given candidate stream ended while the loop was still running

  /** `get_prefix`: the configured prefix, unless it is missing or retired. */
  function GetPrefix(configured: Option<string>): (r: Result<string, DoiError>)
    ensures configured.None? ==> r == Failure(PrefixUnset)
    ensures configured == Some(TestPrefix) ==> r == Failure(PrefixRetired)
    ensures r.Success? <==> configured.Some? && configured.value != TestPrefix
    ensures r.Success? ==> r.value == configured.value
  {
    match configured
    case None => Failure(PrefixUnset)
    case Some(p) => if p == TestPrefix then Failure(PrefixRetired) else Success(p)
  }

  /** A character of `string.ascii_lowercase + string.digits`. */
  predicate ValidCharacter(c: char)
  {
    'a' <= c <= 'z' || '0' <= c <= '9'
  }

  /** The tag in front of every random identifier. */
  const IdentifierTag: string := "qd."

  /** Eight successive `random.choice(valid_characters)` results. */
  type Draw = d: string | |d| == 8 && forall i :: 0 <= i < |d| ==> ValidCharacter(d[i])
    witness "aaaaaaaa"

  /** The DOI built from one draw: `prefix/qd.` and the eight characters. */
  function CandidateDoi(prefix: string, d: Draw): (doi: string)
    ensures |doi| == |prefix| + 12
    ensures Text.StartsWith(doi, prefix + "/" + IdentifierTag)
    ensures forall i :: |prefix| + 4 <= i < |doi| ==> ValidCharacter(doi[i])
  {
    prefix + "/" + IdentifierTag + d
  }

  /** The shape every generated DOI has. */
  predicate IsCandidateShape(prefix: string, s: string)
  {
    && |s| == |prefix| + 12
    && Text.StartsWith(s, prefix + "/" + IdentifierTag)
    && forall i :: |prefix| + 4 <= i < |s| ==> ValidCharacter(s[i])
  }

  /** A string has the candidate shape exactly when some draw produces it,
      and different draws give different DOIs. */
  lemma CandidateShapeExact(prefix: string, s: string)
    ensures IsCandidateShape(prefix, s) <==> exists d: Draw :: CandidateDoi(prefix, d) == s
  {
    if IsCandidateShape(prefix, s) {
      var tail := s[|prefix| + 4..];
      assert forall i :: 0 <= i < |tail| ==> tail[i] == s[|prefix| + 4 + i];
      var d: Draw := tail;
      assert s == s[..|prefix| + 4] + tail;
      assert CandidateDoi(prefix, d) == s;
    }
  }

  lemma CandidateInjective(prefix: string, d1: Draw, d2: Draw)
    requires CandidateDoi(prefix, d1) == CandidateDoi(prefix, d2)
    ensures d1 == d2
  {
    var n := |prefix| + 4;
    assert d1 == CandidateDoi(prefix, d1)[n..];
    assert d2 == CandidateDoi(prefix, d2)[n..];
  }

  /** The outcome of `client.metadata_get(doi)`. */
  datatype Lookup =
    | Registered     // metadata returned: the DOI is taken
    | NotRegistered  // DataCiteNotFoundError: the DOI is free
    | LookupFailed   // any other DataCiteError

  /** One pass of the loop: the draw and what DataCite answers if asked. */
  datatype Candidate = Candidate(draw: Draw, lookup: Lookup)

  const MaxAttempts: nat := 5

  /** A result and how many candidates were used to reach it. */
  datatype Generation = Generation(result: Result<string, DoiError>, consumed: nat)

  function Shift(g: Generation, n: nat): Generation
  {
    g.(consumed := g.consumed + n)
  }

  /** The candidate is taken in the local table. */
  predicate TakenLocally(prefix: string, table: QueryDoiTable, c: Candidate)
  {
    HasDoi(table, CandidateDoi(prefix, c.draw))
  }

  /** The candidate passes both checks. */
  predicate Accepted(prefix: string, table: QueryDoiTable, c: Candidate)
  {
    !TakenLocally(prefix, table, c) && c.lookup == NotRegistered
  }

  /** The candidate reached DataCite and DataCite failed. */
  predicate DataCiteError(prefix: string, table: QueryDoiTable, c: Candidate)
  {
    !TakenLocally(prefix, table, c) && c.lookup == LookupFailed
  }

  function DataCiteErrors(prefix: string, table: QueryDoiTable, cs: seq<Candidate>): nat
  {
    if |cs| == 0 then 0
    else (if DataCiteError(prefix, table, cs[0]) then 1 else 0) + DataCiteErrors(prefix, table, cs[1..])
  }

  /** The loop of `generate_doi` run from a given number of remaining
      attempts: collisions retry for free, DataCite errors cost one attempt. */
  function GenerateFrom(prefix: string, table: QueryDoiTable, cs: seq<Candidate>, attempts: nat): (g: Generation)
    ensures g.consumed <= |cs|
    ensures g.result.Success? ==> 1 <= g.consumed
    ensures g.result.Failure? ==> g.result.error == GenerationFailed || g.result.error == OutOfCandidates
    ensures g.result == Failure(OutOfCandidates) ==> g.consumed == |cs|
    decreases |cs|
  {
    if attempts == 0 then Generation(Failure(GenerationFailed), 0)
    else if |cs| == 0 then Generation(Failure(OutOfCandidates), 0)
    else
      var c := cs[0];
      if Accepted(prefix, table, c) then Generation(Success(CandidateDoi(prefix, c.draw)), 1)
      else
        var rest := if DataCiteError(prefix, table, c) then attempts - 1 else attempts;
        Shift(GenerateFrom(prefix, table, cs[1..], rest), 1)
  }

  /** A success is the DOI of the last candidate used, and that candidate
      passed both checks. */
  lemma {:induction false} GenerateFromAccepted(prefix: string, table: QueryDoiTable, cs: seq<Candidate>, attempts: nat)
    ensures var g := GenerateFrom(prefix, table, cs, attempts);
            g.result.Success? ==>
              && Accepted(prefix, table, cs[g.consumed - 1])
              && g.result.value == CandidateDoi(prefix, cs[g.consumed - 1].draw)
    decreases |cs|
  {
    if attempts > 0 && |cs| > 0 && !Accepted(prefix, table, cs[0]) {
      var rest := if DataCiteError(prefix, table, cs[0]) then attempts - 1 else attempts;
      GenerateFromAccepted(prefix, table, cs[1..], rest);
      var g := GenerateFrom(prefix, table, cs[1..], rest);
      assert g.result.Success? ==> cs[g.consumed] == cs[1..][g.consumed - 1];
    }
  }

  /** The loop returns the first accepted candidate, and it gives up exactly
      when the candidates it used contain as many DataCite errors as there
      were attempts. */
  lemma {:induction false} GenerateAccounting(prefix: string, table: QueryDoiTable, cs: seq<Candidate>, attempts: nat)
    ensures var g := GenerateFrom(prefix, table, cs, attempts);
            && (forall j :: 0 <= j < g.consumed && (g.result.Failure? || j < g.consumed - 1) ==>
                  !Accepted(prefix, table, cs[j]))
            && (g.result == Failure(GenerationFailed) ==> DataCiteErrors(prefix, table, cs[..g.consumed]) == attempts)
            && (g.result == Failure(OutOfCandidates) ==> DataCiteErrors(prefix, table, cs) < attempts)
            && (g.result.Success? ==> DataCiteErrors(prefix, table, cs[..g.consumed]) < attempts)
    decreases |cs|
  {
    var g := GenerateFrom(prefix, table, cs, attempts);
    if attempts > 0 && |cs| > 0 {
      var c := cs[0];
      if Accepted(prefix, table, c) {
        assert cs[..1] == [c];
      } else {
        var rest := if DataCiteError(prefix, table, c) then attempts - 1 else attempts;
        var g' := GenerateFrom(prefix, table, cs[1..], rest);
        GenerateAccounting(prefix, table, cs[1..], rest);
        assert g == Shift(g', 1);
        assert cs[..g.consumed][1..] == cs[1..][..g'.consumed];
        assert forall j :: 1 <= j < g.consumed ==> cs[j] == cs[1..][j - 1];
      }
    }
  }

  /** One pass of the loop, unfolded, for the candidate at position `k`. */
  lemma GenerateStep(prefix: string, table: QueryDoiTable, cs: seq<Candidate>, k: nat, attempts: nat)
    requires attempts > 0 && k < |cs|
    ensures Accepted(prefix, table, cs[k]) ==>
              Shift(GenerateFrom(prefix, table, cs[k..], attempts), k) == Generation(Success(CandidateDoi(prefix, cs[k].draw)), k + 1)
    ensures DataCiteError(prefix, table, cs[k]) ==>
              Shift(GenerateFrom(prefix, table, cs[k..], attempts), k) == Shift(GenerateFrom(prefix, table, cs[k + 1..], attempts - 1), k + 1)
    ensures !Accepted(prefix, table, cs[k]) && !DataCiteError(prefix, table, cs[k]) ==>
              Shift(GenerateFrom(prefix, table, cs[k..], attempts), k) == Shift(GenerateFrom(prefix, table, cs[k + 1..], attempts), k + 1)
  {
    assert cs[k..][0] == cs[k] && cs[k..][1..] == cs[k + 1..];
  }

  /** `generate_doi`: the prefix is checked first, then up to five attempts. */
  function GenerateSpec(configuredPrefix: Option<string>, table: QueryDoiTable, cs: seq<Candidate>): (g: Generation)
    ensures g.consumed <= |cs|
    ensures g.result.Success? ==> GetPrefix(configuredPrefix).Success?
  {
    match GetPrefix(configuredPrefix)
    case Failure(e) => Generation(Failure(e), 0)
    case Success(p) => GenerateFrom(p, table, cs, MaxAttempts)
  }

  /** `generate_doi` as the loop the source runs, over the candidate stream. */
  method GenerateDoi(configuredPrefix: Option<string>, table: QueryDoiTable, cs: seq<Candidate>)
    returns (result: Result<string, DoiError>, consumed: nat)
    ensures Generation(result, consumed) == GenerateSpec(configuredPrefix, table, cs)
    ensures result.Success? ==> !HasDoi(table, result.value) && cs[consumed - 1].lookup == NotRegistered
  {
    var prefix := GetPrefix(configuredPrefix);
    if prefix.Failure? {
      return Failure(prefix.error), 0;
    }
    var p := prefix.value;
    var attempts := MaxAttempts;
    var k := 0;
    ghost var spec := GenerateFrom(p, table, cs, MaxAttempts);
    assert cs[k..] == cs;
    while attempts > 0
      invariant k <= |cs|
      invariant spec == Shift(GenerateFrom(p, table, cs[k..], attempts), k)
      decreases |cs| - k
    {
      if k == |cs| {
        return Failure(OutOfCandidates), k;
      }
      var c := cs[k];
      GenerateStep(p, table, cs, k, attempts);
      var doi := CandidateDoi(p, c.draw);
      if HasDoi(table, doi) {
        assert !Accepted(p, table, c) && !DataCiteError(p, table, c);
        k := k + 1;
        assert spec == Shift(GenerateFrom(p, table, cs[k..], attempts), k);
      } else if c.lookup == NotRegistered {
        assert Accepted(p, table, c);
        return Success(doi), k + 1;
      } else if c.lookup == LookupFailed {
        assert DataCiteError(p, table, c);
        ghost var k0, a0 := k, attempts;
        assert spec == Shift(GenerateFrom(p, table, cs[k0 + 1..], a0 - 1), k0 + 1);
        k, attempts := k + 1, attempts - 1;
        assert k == k0 + 1 && attempts == a0 - 1;
        assert cs[k..] == cs[k0 + 1..];
        assert GenerateFrom(p, table, cs[k..], attempts) == GenerateFrom(p, table, cs[k0 + 1..], a0 - 1);
      } else {
        assert !Accepted(p, table, c) && !DataCiteError(p, table, c);
        k := k + 1;
        assert spec == Shift(GenerateFrom(p, table, cs[k..], attempts), k);
      }
    }
    return Failure(GenerationFailed), k;
  }

  /** A collision, local or at DataCite, leaves the outcome unchanged apart
      from one more candidate used. */
  lemma CollisionIsFree(prefix: string, table: QueryDoiTable, c: Candidate, cs: seq<Candidate>, attempts: nat)
    requires attempts > 0
    requires TakenLocally(prefix, table, c) || c.lookup == Registered
    ensures GenerateFrom(prefix, table, [c] + cs, attempts) == Shift(GenerateFrom(prefix, table, cs, attempts), 1)
  {
    assert ([c] + cs)[1..] == cs;
  }

  /** A record stands for the same query when both its version object and
      its query hash are equal. */
  predicate SameQuery(row: QueryDoi, rv: ResourceVersions, queryHash: string)
  {
    VersionMap(row.resourcesAndVersions) == VersionMap(rv) && row.queryHash == queryHash
  }

  /** Index of the first record of the same query at or after `from`, or `|t|`. */
  function FirstSameQuery(t: QueryDoiTable, rv: ResourceVersions, queryHash: string, from: nat): (i: nat)
    requires from <= |t|
    ensures from <= i <= |t|
    ensures i < |t| ==> SameQuery(t[i], rv, queryHash)
    ensures forall j :: from <= j < i ==> !SameQuery(t[j], rv, queryHash)
    decreases |t| - from
  {
    if from == |t| || SameQuery(t[from], rv, queryHash) then from
    else FirstSameQuery(t, rv, queryHash, from + 1)
  }

  /** `find_existing_doi`: the first record of the same query, if any. */
  function FindExistingDoi(t: QueryDoiTable, rv: ResourceVersions, queryHash: string): (r: Option<QueryDoi>)
    ensures r.None? <==> forall i :: 0 <= i < |t| ==> !SameQuery(t[i], rv, queryHash)
    ensures r.Some? ==> exists i :: 0 <= i < |t| && t[i] == r.value && SameQuery(t[i], rv, queryHash) &&
                          forall j :: 0 <= j < i ==> !SameQuery(t[j], rv, queryHash)
  {
    var i := FirstSameQuery(t, rv, queryHash, 0);
    if i < |t| then Some(t[i]) else None
  }

  /** Appending a matching record to a table with no match makes it the match. */
  lemma FindExistingAfterAppend(t: QueryDoiTable, row: QueryDoi, rv: ResourceVersions, queryHash: string)
    requires FindExistingDoi(t, rv, queryHash).None?
    requires SameQuery(row, rv, queryHash)
    ensures FindExistingDoi(t + [row], rv, queryHash) == Some(row)
  {
    var t' := t + [row];
    assert forall j :: 0 <= j < |t| ==> t'[j] == t[j];
    assert t'[|t|] == row;
  }

  datatype MintError =
    | MultiResourceUnsupported  // not exactly one resource id; `NotImplemented(...)` is not callable, so a TypeError
    | ClientError(e: DoiError)   // get_client failed on the prefix
    | GenerateError(e: DoiError) // generate_doi failed
    | MetadataPostFailed         // DataCiteError from metadata_post
    | DoiNotSplittable           // ValueError: the DOI does not split into two parts at '/'
    | EmptySiteUrl               // IndexError: ckan.site_url is empty
    | DoiPostFailed              // DataCiteError from doi_post
    | InsertFailed(db: DbError)  // the row could not be saved

  /** `data_centre, identifier = doi.split('/')`. */
  function SplitDoi(doi: string): (r: Option<(string, string)>)
    ensures r.Some? ==> r.value.0 + "/" + r.value.1 == doi && '/' !in r.value.0 && '/' !in r.value.1
    ensures r.None? <==> |Text.Split(doi, '/')| != 2
  {
    var parts := Text.Split(doi, '/');
    if |parts| == 2 then
      Text.JoinSplit(doi, '/');
      Some((parts[0], parts[1]))
    else None
  }

  /** A generated DOI splits into its prefix and `qd.` identifier whenever
      the prefix has no `/`. */
  lemma SplitCandidate(prefix: string, d: Draw)
    requires '/' !in prefix
    ensures SplitDoi(CandidateDoi(prefix, d)) == Some((prefix, IdentifierTag + d))
  {
    var id := IdentifierTag + d;
    assert '/' !in id by {
      forall i | 0 <= i < |id| ensures id[i] != '/' {
        if i >= 3 {
          assert id[i] == d[i - 3];
        }
      }
    }
    Text.SplitJoin([prefix, id], '/');
    assert Text.Join([prefix, id], "/") == CandidateDoi(prefix, d);
  }

  /** The site URL with one trailing `/` removed (`site[-1]` fails when empty). */
  function SiteBase(site: string): (r: Result<string, MintError>)
    ensures r.Failure? <==> |site| == 0
    ensures r.Failure? ==> r.error == EmptySiteUrl
    ensures r.Success? && site[|site| - 1] == '/' ==> r.value + "/" == site
    ensures r.Success? && site[|site| - 1] != '/' ==> r.value == site
  {
    if |site| == 0 then Failure(EmptySiteUrl)
    else if site[|site| - 1] == '/' then
      assert site[..|site| - 1] + "/" == site;
      Success(site[..|site| - 1])
    else Success(site)
  }

  /** The landing page URL handed to `doi_post`; `landingPath` stands for
      `url_for('query_doi.landing_page', data_centre=..., identifier=...)`. */
  function LandingUrl(site: string, landingPath: (string, string) -> string, doi: string): (r: Result<string, MintError>)
    ensures SplitDoi(doi).None? ==> r == Failure(DoiNotSplittable)
    ensures SplitDoi(doi).Some? && |site| == 0 ==> r == Failure(EmptySiteUrl)
    ensures r.Success? <==> SplitDoi(doi).Some? && |site| > 0
    ensures r.Success? ==> r.value == SiteBase(site).value + landingPath(SplitDoi(doi).value.0, SplitDoi(doi).value.1)
  {
    match SplitDoi(doi)
    case None => Failure(DoiNotSplittable)
    case Some((dataCentre, identifier)) =>
      match SiteBase(site)
      case Failure(e) => Failure(e)
      case Success(base) => Success(base + landingPath(dataCentre, identifier))
  }

  /** The effects a mint has outside the process, in order. A DataCite call
      is recorded whether or not it succeeded; `Insert` stands for a row that
      was committed, so a refused insert leaves no `Insert`. */
  datatype Call =
    | ClientCreated
    | MetadataGet(doi: string)
    | MetadataPost(doi: string)
    | DoiPost(doi: string, url: string)
    | Insert(doi: string)

  /** What the mint needs from the `DatastoreQuery` object; `roundedVersion`
      is `get_rounded_version`, `None` when the resource has no data. */
  datatype DatastoreQuery = DatastoreQuery(
    query: Params,
    queryHash: string,
    requestedVersion: Option<int>,
    roundedVersion: string -> Option<int>,
    count: string -> int)

  /** Configuration and the answers of the clock, the random source and DataCite. */
  datatype Environment = Environment(
    prefix: Option<string>,
    siteUrl: string,
    now: int,
    candidates: seq<Candidate>,
    metadataPostSucceeds: bool,
    doiPostSucceeds: bool,
    landingPath: (string, string) -> string)

  datatype MintOutcome = MintOutcome(result: Result<(bool, QueryDoi), MintError>, table: QueryDoiTable, calls: seq<Call>)

  /** The `metadata_get` calls made for the candidates used: every candidate
      not already in the table is looked up, and no other DOI is. */
  function LookupCalls(prefix: string, table: QueryDoiTable, cs: seq<Candidate>): (calls: seq<Call>)
    ensures forall i :: 0 <= i < |calls| ==> calls[i].MetadataGet?
  {
    if |cs| == 0 then []
    else
      var doi := CandidateDoi(prefix, cs[0].draw);
      (if HasDoi(table, doi) then [] else [MetadataGet(doi)]) + LookupCalls(prefix, table, cs[1..])
  }

  /** Exactly the candidates absent from the table are looked up, at most
      one call per candidate. */
  lemma {:induction false} LookupCallsExact(prefix: string, table: QueryDoiTable, cs: seq<Candidate>)
    ensures forall d :: MetadataGet(d) in LookupCalls(prefix, table, cs) <==>
              exists j :: 0 <= j < |cs| && d == CandidateDoi(prefix, cs[j].draw) && !HasDoi(table, d)
    ensures |LookupCalls(prefix, table, cs)| <= |cs|
    decreases |cs|
  {
    if |cs| > 0 {
      LookupCallsExact(prefix, table, cs[1..]);
      assert forall j :: 1 <= j < |cs| ==> cs[j] == cs[1..][j - 1];
      assert forall j :: 0 <= j < |cs| - 1 ==> cs[1..][j] == cs[j + 1];
    }
  }

  /** `_create_database_entry`: the row for a newly minted DOI. */
  function NewRecord(doi: string, rv: ResourceVersions, timestamp: int, q: DatastoreQuery, count: int): QueryDoi
  {
    QueryDoi(doi, rv, timestamp, q.query, q.queryHash, q.requestedVersion, count, None, None)
  }

  /** `_create_doi_on_datacite` followed by `_create_database_entry`. */
  function Register(doi: string, rid: string, q: DatastoreQuery, table: QueryDoiTable, env: Environment,
                    before: seq<Call>): (o: MintOutcome)
    ensures o.result.Failure? ==> o.table == table
    ensures |o.calls| > |before| && o.calls[..|before|] == before && o.calls[|before|] == MetadataPost(doi)
    ensures o.result.Success? ==>
              var rec := NewRecord(doi, [ResourceVersion(rid, q.roundedVersion(rid))], env.now, q, q.count(rid));
              && env.metadataPostSucceeds && env.doiPostSucceeds
              && LandingUrl(env.siteUrl, env.landingPath, doi).Success?
              && o.result.value == (true, rec)
              && InsertQueryDoi(table, rec) == Success(o.table)
              && o.calls == before + [MetadataPost(doi), DoiPost(doi, LandingUrl(env.siteUrl, env.landingPath, doi).value), Insert(doi)]
    ensures o.result.Failure? ==> Insert(doi) !in o.calls[|before|..]
    ensures o.result.Failure? ==> |o.calls| <= |before| + 2
    ensures o.result.Success? <==>
              && env.metadataPostSucceeds && LandingUrl(env.siteUrl, env.landingPath, doi).Success?
              && env.doiPostSucceeds && !HasDoi(table, doi)
  {
    var calls0 := before + [MetadataPost(doi)];
    if !env.metadataPostSucceeds then MintOutcome(Failure(MetadataPostFailed), table, calls0)
    else
      match LandingUrl(env.siteUrl, env.landingPath, doi)
      case Failure(e) => MintOutcome(Failure(e), table, calls0)
      case Success(url) =>
        var calls1 := calls0 + [DoiPost(doi, url)];
        if !env.doiPostSucceeds then
          assert calls1[|before|..] == [MetadataPost(doi), DoiPost(doi, url)];
          MintOutcome(Failure(DoiPostFailed), table, calls1)
        else
          var rec := NewRecord(doi, [ResourceVersion(rid, q.roundedVersion(rid))], env.now, q, q.count(rid));
          match InsertQueryDoi(table, rec)
          case Failure(e) =>
            assert calls1[|before|..] == [MetadataPost(doi), DoiPost(doi, url)];
            MintOutcome(Failure(InsertFailed(e)), table, calls1)
          case Success(t) => MintOutcome(Success((true, rec)), t, calls1 + [Insert(doi)])
  }

  /** A failed registration names the first step that failed. */
  lemma RegisterFailures(doi: string, rid: string, q: DatastoreQuery, table: QueryDoiTable, env: Environment,
                         before: seq<Call>)
    ensures var o := Register(doi, rid, q, table, env, before);
            && (!env.metadataPostSucceeds ==> o.result == Failure(MetadataPostFailed))
            && (env.metadataPostSucceeds && LandingUrl(env.siteUrl, env.landingPath, doi).Failure? ==>
                  o.result == Failure(LandingUrl(env.siteUrl, env.landingPath, doi).error))
            && (env.metadataPostSucceeds && LandingUrl(env.siteUrl, env.landingPath, doi).Success? && !env.doiPostSucceeds ==>
                  o.result == Failure(DoiPostFailed))
  {
  }

  /** The record a successful mint of a new DOI stores. */
  predicate IsNewMint(rid: string, q: DatastoreQuery, table: QueryDoiTable, env: Environment, o: MintOutcome)
  {
    && o.result.Success?
    && var rec := o.result.value.1;
    && o.result.value.0
    && rec.resourcesAndVersions == [ResourceVersion(rid, q.roundedVersion(rid))]
    && rec.query == q.query && rec.queryHash == q.queryHash
    && rec.requestedVersion == q.requestedVersion
    && rec.count == q.count(rid) && rec.timestamp == env.now
    && !HasDoi(table, rec.doi)
    && env.prefix.Some? && IsCandidateShape(env.prefix.value, rec.doi)
    && var g := GenerateSpec(env.prefix, table, env.candidates);
    && g.result == Success(rec.doi)
    && o.table == table + [rec]
    && LandingUrl(env.siteUrl, env.landingPath, rec.doi).Success?
    && o.calls == [ClientCreated] + LookupCalls(env.prefix.value, table, env.candidates[..g.consumed]) +
                  [MetadataPost(rec.doi), DoiPost(rec.doi, LandingUrl(env.siteUrl, env.landingPath, rec.doi).value), Insert(rec.doi)]
  }

  /** Registering the DOI `generate_doi` returned, after the client and its
      lookups, is a new mint when it succeeds and adds no insert when it
      fails. */
  lemma RegisterNewMint(rid: string, q: DatastoreQuery, table: QueryDoiTable, env: Environment,
                        doi: string, before: seq<Call>)
    requires GenerateSpec(env.prefix, table, env.candidates).result == Success(doi)
    requires before == [ClientCreated] +
               LookupCalls(GetPrefix(env.prefix).value, table,
                           env.candidates[..GenerateSpec(env.prefix, table, env.candidates).consumed])
    ensures var o := Register(doi, rid, q, table, env, before);
            && (o.result.Success? ==> IsNewMint(rid, q, table, env, o))
            && (o.result.Failure? ==> o.table == table && forall i :: 0 <= i < |o.calls| ==> !o.calls[i].Insert?)
  {
    var prefix := GetPrefix(env.prefix).value;
    assert prefix == env.prefix.value;
    GenerateFromAccepted(prefix, table, env.candidates, MaxAttempts);
    CandidateShapeExact(prefix, doi);
    var lookups := LookupCalls(prefix, table, env.candidates[..GenerateSpec(env.prefix, table, env.candidates).consumed]);
    assert forall i :: 1 <= i < |before| ==> before[i] == lookups[i - 1];
    RegisterFailureAddsNoInsert(doi, rid, q, table, env, before);
    var o := Register(doi, rid, q, table, env, before);
    if o.result.Success? {
      assert o.result.value.1.doi == doi;
    }
  }

  /** A failed registration adds no insert to calls that had none. */
  lemma RegisterFailureAddsNoInsert(doi: string, rid: string, q: DatastoreQuery, table: QueryDoiTable, env: Environment,
                                    before: seq<Call>)
    requires forall i :: 0 <= i < |before| ==> !before[i].Insert?
    ensures var o := Register(doi, rid, q, table, env, before);
            o.result.Failure? ==> forall i :: 0 <= i < |o.calls| ==> !o.calls[i].Insert?
  {
    var o := Register(doi, rid, q, table, env, before);
    if o.result.Failure? {
      assert forall i :: 0 <= i < |before| ==> o.calls[i] == before[i];
      assert forall i :: |before| <= i < |o.calls| ==> o.calls[i] == o.calls[|before|..][i - |before|];
    }
  }

  /** When a mint that found no earlier record succeeds: the prefix is
      usable, a free DOI is found, both DataCite posts succeed and the
      landing URL can be built. */
  predicate FreshMintSucceeds(table: QueryDoiTable, env: Environment)
  {
    var g := GenerateSpec(env.prefix, table, env.candidates);
    && GetPrefix(env.prefix).Success?
    && g.result.Success?
    && env.metadataPostSucceeds
    && LandingUrl(env.siteUrl, env.landingPath, g.result.value).Success?
    && env.doiPostSucceeds
  }

  /** `mint_doi` after the lookup found nothing: client, new DOI, DataCite
      registration, then the insert. */
  function MintNew(rid: string, q: DatastoreQuery, table: QueryDoiTable, env: Environment): (o: MintOutcome)
    ensures o.result.Success? ==> IsNewMint(rid, q, table, env, o)
    ensures o.result.Failure? ==> o.table == table && forall i :: 0 <= i < |o.calls| ==> !o.calls[i].Insert?
    ensures GetPrefix(env.prefix).Success? ==>
              var g := GenerateSpec(env.prefix, table, env.candidates);
              var before := [ClientCreated] + LookupCalls(GetPrefix(env.prefix).value, table, env.candidates[..g.consumed]);
              && (g.result.Failure? ==> o == MintOutcome(Failure(GenerateError(g.result.error)), table, before))
              && (g.result.Success? ==> o == Register(g.result.value, rid, q, table, env, before))
  {
    match GetPrefix(env.prefix)
    case Failure(e) => MintOutcome(Failure(ClientError(e)), table, [])
    case Success(prefix) =>
      var g := GenerateSpec(env.prefix, table, env.candidates);
      var before := [ClientCreated] + LookupCalls(prefix, table, env.candidates[..g.consumed]);
      assert forall i :: 1 <= i < |before| ==> before[i].MetadataGet?;
      match g.result
      case Failure(e) => MintOutcome(Failure(GenerateError(e)), table, before)
      case Success(doi) =>
        RegisterNewMint(rid, q, table, env, doi, before);
        Register(doi, rid, q, table, env, before)
  }

  /** A mint that found no earlier record succeeds exactly when the prefix,
      the DOI search, both DataCite posts and the landing URL do; the first
      step that fails names the error. */
  lemma MintNewSucceeds(rid: string, q: DatastoreQuery, table: QueryDoiTable, env: Environment)
    ensures MintNew(rid, q, table, env).result.Success? <==> FreshMintSucceeds(table, env)
    ensures GetPrefix(env.prefix).Failure? ==>
              MintNew(rid, q, table, env) == MintOutcome(Failure(ClientError(GetPrefix(env.prefix).error)), table, [])
    ensures GetPrefix(env.prefix).Success? && GenerateSpec(env.prefix, table, env.candidates).result.Failure? ==>
              MintNew(rid, q, table, env).result == Failure(GenerateError(GenerateSpec(env.prefix, table, env.candidates).result.error))
  {
    if GetPrefix(env.prefix).Success? {
      var g := GenerateSpec(env.prefix, table, env.candidates);
      if g.result.Success? {
        GenerateFromAccepted(GetPrefix(env.prefix).value, table, env.candidates, MaxAttempts);
        assert !HasDoi(table, g.result.value);
      }
    }
  }

  /** `mint_doi`. */
  function Mint(resourceIds: seq<string>, q: DatastoreQuery, table: QueryDoiTable, env: Environment): (o: MintOutcome)
    ensures |resourceIds| != 1 ==> o == MintOutcome(Failure(MultiResourceUnsupported), table, [])
    ensures o.result.Failure? ==> o.table == table
    ensures o.result.Failure? ==> forall i :: 0 <= i < |o.calls| ==> !o.calls[i].Insert?
    ensures |resourceIds| == 1 ==>
              var rv := [ResourceVersion(resourceIds[0], q.roundedVersion(resourceIds[0]))];
              var existing := FindExistingDoi(table, rv, q.queryHash);
              && (existing.Some? ==> o == MintOutcome(Success((false, existing.value)), table, []))
              && (existing.None? && o.result.Success? ==> IsNewMint(resourceIds[0], q, table, env, o))
              && (existing.None? ==> (o.result.Success? <==> FreshMintSucceeds(table, env)))
              && (o.result.Success? ==> SameQuery(o.result.value.1, rv, q.queryHash))
    ensures o.result.Success? && !o.result.value.0 ==> o.calls == [] && o.table == table
    ensures |resourceIds| == 1 &&
            FindExistingDoi(table, [ResourceVersion(resourceIds[0], q.roundedVersion(resourceIds[0]))], q.queryHash).None? ==>
              o == MintNew(resourceIds[0], q, table, env)
  {
    if |resourceIds| != 1 then MintOutcome(Failure(MultiResourceUnsupported), table, [])
    else
      var rid := resourceIds[0];
      var rv := [ResourceVersion(rid, q.roundedVersion(rid))];
      match FindExistingDoi(table, rv, q.queryHash)
      case Some(existing) => MintOutcome(Success((false, existing)), table, [])
      case None =>
        MintNewSucceeds(rid, q, table, env);
        MintNew(rid, q, table, env)
  }

  /** No two records of the table stand for the same query. */
  predicate QueriesUnique(t: QueryDoiTable)
  {
    forall i, j :: 0 <= i < j < |t| ==> !SameQuery(t[j], t[i].resourcesAndVersions, t[i].queryHash)
  }

  /** Minting the same query again, against the table the first mint left,
      returns the same record without minting or calling anything. */
  lemma MintIdempotent(resourceIds: seq<string>, q: DatastoreQuery, table: QueryDoiTable, env: Environment, env': Environment)
    ensures var first := Mint(resourceIds, q, table, env);
            first.result.Success? ==>
              Mint(resourceIds, q, first.table, env') ==
                MintOutcome(Success((false, first.result.value.1)), first.table, [])
  {
    var first := Mint(resourceIds, q, table, env);
    if first.result.Success? {
      var rid := resourceIds[0];
      var rv := [ResourceVersion(rid, q.roundedVersion(rid))];
      if FindExistingDoi(table, rv, q.queryHash).None? {
        FindExistingAfterAppend(table, first.result.value.1, rv, q.queryHash);
      }
    }
  }

  /** A mint never adds a second record for a query already recorded, nor a
      second record with the same DOI. */
  lemma MintKeepsTableUnique(resourceIds: seq<string>, q: DatastoreQuery, table: QueryDoiTable, env: Environment)
    requires QueriesUnique(table) && DoiUnique(table)
    ensures QueriesUnique(Mint(resourceIds, q, table, env).table)
    ensures DoiUnique(Mint(resourceIds, q, table, env).table)
  {
    var o := Mint(resourceIds, q, table, env);
    if o.table != table {
      var rid := resourceIds[0];
      var rv := [ResourceVersion(rid, q.roundedVersion(rid))];
      var rec := o.result.value.1;
      assert FindExistingDoi(table, rv, q.queryHash).None?;
      forall i, j | 0 <= i < j < |o.table|
        ensures !SameQuery(o.table[j], o.table[i].resourcesAndVersions, o.table[i].queryHash)
      {
        if j == |table| {
          assert o.table[j] == rec && o.table[i] == table[i];
          assert !SameQuery(table[i], rv, q.queryHash);
        } else {
          assert o.table[j] == table[j] && o.table[i] == table[i];
        }
      }
    }
  }
}

=== FILE: helpers.dfy ===
/** The template helpers: filter values, the "time ago" description and
    the citation. */
module Helpers {
  import opened Wrappers
  import Text

  // ---------------------------------------------------------------- filters

  const GeoField: string := "__geo__"

  datatype RenderError = GeoNotParsed  // json.loads failed or the object has no `type`

  /** `render_filter_value`; `geoType` stands for `json.loads(v)['type']`. */
  function RenderFilterValue(field: string, value: string, geoType: string -> Option<string>): (r: Result<string, RenderError>)
    ensures field != GeoField ==> r == Success(value)
    ensures field == GeoField ==> (r.Success? <==> geoType(value).Some?)
    ensures field == GeoField && r.Success? ==> r.value == geoType(value).value
  {
    if field == GeoField then
      match geoType(value)
      case None => Failure(GeoNotParsed)
      case Some(t) => Success(t)
    else Success(value)
  }

  // ---------------------------------------------------------------- time ago

  /** One row of `time_resolutions`; a `None` limit is `float('inf')`. */
  datatype Resolution = Resolution(limit: Option<nat>, unit: string, divisor: nat)

  const MicrosPerSecond: nat := 1_000_000

  /** `time_resolutions` as the source spells it. */
  const ResolutionsAsWritten: seq<Resolution> := [
    Resolution(Some(60), "seceond", 1),
    Resolution(Some(60 * 60), "minute", 60),
    Resolution(Some(60 * 60 * 24), "hour", 60 * 60),
    Resolution(Some(60 * 60 * 24 * 7), "day", 60 * 60 * 24),
    Resolution(Some(60 * 60 * 24 * 28), "week", 60 * 60 * 24 * 7),
    Resolution(Some(60 * 60 * 24 * 365), "month", 60 * 60 * 24 * 28),
    Resolution(None, "year", 60 * 60 * 24 * 365)
  ]

  /** `time_resolutions` with the unit of the first row spelled `second`. */
  const Resolutions: seq<Resolution> := [
    Resolution(Some(60), "second", 1),
    Resolution(Some(60 * 60), "minute", 60),
    Resolution(Some(60 * 60 * 24), "hour", 60 * 60),
    Resolution(Some(60 * 60 * 24 * 7), "day", 60 * 60 * 24),
    Resolution(Some(60 * 60 * 24 * 28), "week", 60 * 60 * 24 * 7),
    Resolution(Some(60 * 60 * 24 * 365), "month", 60 * 60 * 24 * 28),
    Resolution(None, "year", 60 * 60 * 24 * 365)
  ]

  /** A table the loop always leaves through: positive divisors, an infinite last row. */
  predicate WellFormed(table: seq<Resolution>)
  {
    && |table| > 0 && table[|table| - 1].limit.None?
    && forall i :: 0 <= i < |table| ==> table[i].divisor > 0
  }

  /** `seconds < limit`, with the elapsed time in microseconds. */
  predicate Within(micros: int, r: Resolution)
  {
    r.limit.None? || micros < r.limit.value * MicrosPerSecond
  }

  /** The row the loop stops at: the first whose limit the time is under. */
  function Bucket(table: seq<Resolution>, micros: int, from: nat): (i: nat)
    requires WellFormed(table) && from < |table|
    ensures from <= i < |table| && Within(micros, table[i])
    ensures forall j :: from <= j < i ==> !Within(micros, table[j])
    decreases |table| - from
  {
    if Within(micros, table[from]) then from else Bucket(table, micros, from + 1)
  }

  /** How many times `b` fits into `a`. */
  function FloorDiv(a: nat, b: nat): (q: nat)
    requires b > 0
    ensures q * b <= a < q * b + b
    decreases a
  {
    if a < b then 0 else 1 + FloorDiv(a - b, b)
  }

  /** `int(a / b)`: division truncated toward zero. */
  function TruncDiv(a: int, b: nat): (q: int)
    requires b > 0
    ensures a >= 0 ==> 0 <= q && q * b <= a < q * b + b
    ensures a < 0 ==> q <= 0 && q * b - b < a <= q * b
  {
    if a >= 0 then FloorDiv(a, b) else -(FloorDiv(-a, b) as int)
  }

  /** The description for an elapsed time under a resolution table. */
  function Describe(table: seq<Resolution>, micros: int): string
    requires WellFormed(table)
  {
    var r := table[Bucket(table, micros, 0)];
    var value := TruncDiv(micros, r.divisor * MicrosPerSecond);
    Text.IntToString(value) + " " + r.unit + (if value > 1 then "s" else "") + " ago"
  }

  /** `get_time_ago_description` as written. */
  function TimeAgoAsWritten(micros: int): string
  {
    Describe(ResolutionsAsWritten, micros)
  }

  /** `get_time_ago_description`, `micros` being the elapsed time in microseconds. */
  function TimeAgo(micros: int): string
  {
    Describe(Resolutions, micros)
  }

  /** How many of its units a row can show before the next row takes over. */
  const UnitsBeforeNext: seq<nat> := [60, 60, 24, 7, 4, 14]

  /** The number shown is at least one in every row after the first and
      stays under the next row's limit. */
  lemma TimeAgoValueRange(micros: int)
    requires micros >= 0
    ensures var i := Bucket(Resolutions, micros, 0);
            var value := TruncDiv(micros, Resolutions[i].divisor * MicrosPerSecond);
            && value >= 0
            && (i > 0 ==> value >= 1)
            && (i < 6 ==> value < UnitsBeforeNext[i])
  {
    var i := Bucket(Resolutions, micros, 0);
    var d := Resolutions[i].divisor * MicrosPerSecond;
    var value := TruncDiv(micros, d);
    if i > 0 {
      assert !Within(micros, Resolutions[i - 1]);
      assert Resolutions[i - 1].limit.value == Resolutions[i].divisor;
    }
  }

  /** As written, the first row's unit is misspelled in every description under a minute. */
  lemma SeceondShown()
    ensures TimeAgoAsWritten(5 * MicrosPerSecond) == "5 seceonds ago"
  {
    assert Bucket(ResolutionsAsWritten, 5 * MicrosPerSecond, 0) == 0;
    assert TruncDiv(5 * MicrosPerSecond, MicrosPerSecond) == 5;
  }

  /** A time under the first row's limit is described in that row's unit. */
  lemma FirstRow(table: seq<Resolution>, micros: int)
    requires WellFormed(table) && Within(micros, table[0])
    ensures var v := TruncDiv(micros, table[0].divisor * MicrosPerSecond);
            Describe(table, micros) ==
              Text.IntToString(v) + (" " + table[0].unit + (if v > 1 then "s" else "") + " ago")
  {
  }

  /** With the corrected table, anything under a minute (a negative elapsed
      time included) is described in seconds. */
  lemma UnderAMinuteInSeconds(micros: int)
    requires micros < 60 * MicrosPerSecond
    ensures var n := TruncDiv(micros, MicrosPerSecond);
            TimeAgo(micros) == Text.IntToString(n) + (if n > 1 then " seconds ago" else " second ago")
  {
    FirstRow(Resolutions, micros);
    var n := TruncDiv(micros, MicrosPerSecond);
    assert " " + "second" + "s" + " ago" == " seconds ago";
    assert " " + "second" + "" + " ago" == " second ago";
  }

  /** As written, every description under a minute carries the misspelt unit. */
  lemma AsWrittenUnderAMinute(micros: int)
    requires micros < 60 * MicrosPerSecond
    ensures var n := TruncDiv(micros, MicrosPerSecond);
            TimeAgoAsWritten(micros) == Text.IntToString(n) + (if n > 1 then " seceonds ago" else " seceond ago")
  {
    FirstRow(ResolutionsAsWritten, micros);
    var n := TruncDiv(micros, MicrosPerSecond);
    assert " " + "seceond" + "s" + " ago" == " seceonds ago";
    assert " " + "seceond" + "" + " ago" == " seceond ago";
  }

  /** The two tables pick the same row for every time, and from a minute on
      the shipped descriptions are the corrected ones. */
  lemma AsWrittenAgreesFromAMinute(micros: int)
    ensures Bucket(ResolutionsAsWritten, micros, 0) == Bucket(Resolutions, micros, 0)
    ensures micros >= 60 * MicrosPerSecond ==> TimeAgoAsWritten(micros) == TimeAgo(micros)
  {
    assert forall i :: 0 <= i < 7 ==>
      ResolutionsAsWritten[i].limit == Resolutions[i].limit && ResolutionsAsWritten[i].divisor == Resolutions[i].divisor;
    assert forall i :: 1 <= i < 7 ==> ResolutionsAsWritten[i] == Resolutions[i];
  }

  /** A description is three words: the value, the unit of the row the time
      falls in with an `s` exactly when the value is above one, and `ago`. */
  lemma DescribeWords(table: seq<Resolution>, micros: int)
    requires WellFormed(table)
    requires forall i :: 0 <= i < |table| ==> ' ' !in table[i].unit
    ensures var i := Bucket(table, micros, 0);
            var v := TruncDiv(micros, table[i].divisor * MicrosPerSecond);
            Text.Split(Describe(table, micros), ' ') ==
              [Text.IntToString(v), table[i].unit + (if v > 1 then "s" else ""), "ago"]
  {
    var i := Bucket(table, micros, 0);
    var v := TruncDiv(micros, table[i].divisor * MicrosPerSecond);
    var a, b, c := Text.IntToString(v), table[i].unit + (if v > 1 then "s" else ""), "ago";
    assert ' ' !in a by {
      var digits := Text.NatToString(if v < 0 then -v else v);
      assert forall k :: 0 <= k < |digits| ==> digits[k] != ' ';
    }
    assert ' ' !in b;
    assert Text.Join([b, c], " ") == b + " " + c;
    assert Text.Join([a, b, c], " ") == a + " " + (b + " " + c);
    assert Describe(table, micros) == a + " " + (b + " " + c);
    Text.SplitJoin([a, b, c], ' ');
  }

  // ---------------------------------------------------------------- citation

  /** `'{}'.format(x)` of an optional string. */
  function PyStr(o: Option<string>): string
  {
    match o
    case None => "None"
    case Some(s) => s
  }

  function DoiUrl(doi: string): string
  {
    "https://doi.org/" + doi
  }

  /** The text around the query DOI's link in the citation. */
  function QueryPid(queryLink: string, packageTitle: string): string
  {
    " PID " + queryLink + ". Subset of \"" + packageTitle + "\" (dataset)"
  }

  /** The part of the citation before the query DOI. */
  function CitationHead(publisher: string, year: int, resourceName: string, created: string): string
  {
    publisher + " (" + Text.IntToString(year) + "). " + ("Data Portal Query on \"" + resourceName + "\" created at " + created)
  }

  /** Where the pieces of a four-part concatenation sit. */
  lemma Pieces(s0: string, s1: string, s2: string, s3: string)
    ensures var r := s0 + s1 + s2 + s3;
            && Text.StartsWith(r, s0)
            && Text.StartsWith(r, s0 + s1)
            && Text.OccursAt(s2, r, |s0| + |s1|)
            && Text.EndsWith(r, s2 + s3)
            && Text.EndsWith(r, s3)
  {
    var r := s0 + s1 + s2 + s3;
    assert r == s0 + (s1 + s2 + s3);
    assert r == (s0 + s1) + (s2 + s3);
    assert r[|s0| + |s1|..|s0| + |s1| + |s2|] == s2;
    assert r == (s0 + s1 + s2) + s3;
  }

  /** The citation template of `create_citation_text`, filled in with the two
      DOI links (the package link only when there is a package DOI). */
  function CitationLayout(publisher: string, year: int, created: string, resourceName: string, packageTitle: string,
                          queryLink: string, packageLink: Option<string>): (r: string)
    ensures Text.StartsWith(r, CitationHead(publisher, year, resourceName, created))
    ensures Text.StartsWith(r, publisher + " (" + Text.IntToString(year) + "). ")
    ensures Text.OccursAt(QueryPid(queryLink, packageTitle), r, |CitationHead(publisher, year, resourceName, created)|)
    ensures packageLink.None? ==> Text.EndsWith(r, QueryPid(queryLink, packageTitle))
    ensures packageLink.Some? ==> Text.EndsWith(r, " PID " + packageLink.value + ".")
    ensures |r| == |CitationHead(publisher, year, resourceName, created)| + |QueryPid(queryLink, packageTitle)| +
                   (if packageLink.Some? then |" PID " + packageLink.value + "."| else 0)
  {
    var start := publisher + " (" + Text.IntToString(year) + "). ";
    var mid := "Data Portal Query on \"" + resourceName + "\" created at " + created;
    var pid := QueryPid(queryLink, packageTitle);
    var tail := if packageLink.Some? then " PID " + packageLink.value + "." else "";
    Pieces(start, mid, pid, tail);
    assert pid + tail == pid || packageLink.Some?;
    start + mid + pid + tail
  }

  /** `create_citation_text`; `created` is the text of the creation datetime,
      `configPublisher` the configured publisher and `linkTo` stands for
      `link_to` with the URL as label and target. */
  function CitationText(queryDoi: string, year: int, created: string, resourceName: string, packageTitle: string,
                        packageDoi: Option<string>, publisher: Option<string>, configPublisher: Option<string>,
                        html: bool, linkTo: string -> string): (r: string)
    ensures var pub := if publisher.Some? then publisher else configPublisher;
            Text.StartsWith(r, CitationHead(PyStr(pub), year, resourceName, created))
    ensures var pub := if publisher.Some? then publisher else configPublisher;
            var queryLink := if html then linkTo(DoiUrl(queryDoi)) else DoiUrl(queryDoi);
            Text.OccursAt(QueryPid(queryLink, packageTitle), r, |CitationHead(PyStr(pub), year, resourceName, created)|)
    ensures var queryLink := if html then linkTo(DoiUrl(queryDoi)) else DoiUrl(queryDoi);
            packageDoi.None? ==> Text.EndsWith(r, QueryPid(queryLink, packageTitle))
    ensures packageDoi.Some? ==>
              Text.EndsWith(r, " PID " + (if html then linkTo(DoiUrl(packageDoi.value)) else DoiUrl(packageDoi.value)) + ".")
    ensures var pub := if publisher.Some? then publisher else configPublisher;
            var queryLink := if html then linkTo(DoiUrl(queryDoi)) else DoiUrl(queryDoi);
            |r| == |CitationHead(PyStr(pub), year, resourceName, created)| + |QueryPid(queryLink, packageTitle)| +
                   (if packageDoi.Some? then
                      |" PID " + (if html then linkTo(DoiUrl(packageDoi.value)) else DoiUrl(packageDoi.value)) + "."|
                    else 0)
  {
    var pub := PyStr(if publisher.Some? then publisher else configPublisher);
    var queryLink := if html then linkTo(DoiUrl(queryDoi)) else DoiUrl(queryDoi);
    var packageLink := if packageDoi.Some? then
                         Some(if html then linkTo(DoiUrl(packageDoi.value)) else DoiUrl(packageDoi.value))
                       else None;
    CitationLayout(pub, year, created, resourceName, packageTitle, queryLink, packageLink)
  }

  /** The HTML and the plain citation are the one template filled in with the
      same text everywhere except the two DOI links: `link_to` of the URL in
      HTML, the bare URL otherwise. */
  lemma CitationHtmlOnlyLinks(queryDoi: string, year: int, created: string, resourceName: string, packageTitle: string,
                              packageDoi: Option<string>, publisher: Option<string>, configPublisher: Option<string>,
                              linkTo: string -> string)
    ensures var pub := PyStr(if publisher.Some? then publisher else configPublisher);
            CitationText(queryDoi, year, created, resourceName, packageTitle, packageDoi, publisher, configPublisher, true, linkTo)
            == CitationLayout(pub, year, created, resourceName, packageTitle, linkTo(DoiUrl(queryDoi)),
                              if packageDoi.Some? then Some(linkTo(DoiUrl(packageDoi.value))) else None)
    ensures var pub := PyStr(if publisher.Some? then publisher else configPublisher);
            CitationText(queryDoi, year, created, resourceName, packageTitle, packageDoi, publisher, configPublisher, false, linkTo)
            == CitationLayout(pub, year, created, resourceName, packageTitle, DoiUrl(queryDoi),
                              if packageDoi.Some? then Some(DoiUrl(packageDoi.value)) else None)
  {
  }
}

=== FILE: landing_page.dfy ===
/** The landing page a query DOI resolves to: the record looked up by DOI
    and the author line. */
module LandingPage {
  import opened Wrappers
  import opened Model
  import Text
  import Doi

  // ---------------------------------------------------------------- authors

  /** The default `max_length` of `_get_authors`. */
  const MaxLength: nat := 50

  /** The hover markup around the full author text of a shortened label. */
  const AbbrOpen: string := " <abbr title=\""
  const AbbrClose: string := "\" style=\"cursor: pointer;\">et al.</abbr>"

  /** `split(separator)[:4]`. */
  function FirstFour(parts: seq<string>): (r: seq<string>)
    ensures |r| == if |parts| <= 4 then |parts| else 4
    ensures r == parts[..|r|]
  {
    if |parts| <= 4 then parts else parts[..4]
  }

  /** The short form of a long author value: the first four names rejoined
      with `;`, or, with no separator, the text `truncate` (jinja's
      `do_truncate` with `end=''`) cuts down to `maxLength`. */
  function Shortened(author: string, maxLength: nat, truncate: (string, nat) -> string): string
  {
    if ';' in author then Text.Join(FirstFour(Text.Split(author, ';')), ";")
    else if ',' in author then Text.Join(FirstFour(Text.Split(author, ',')), ";")
    else truncate(author, maxLength)
  }

  /** The label one package contributes to the author line. */
  function Label(author: string, maxLength: nat, truncate: (string, nat) -> string): (r: string)
    ensures |author| <= maxLength ==> r == author
    ensures |author| > maxLength ==>
              Text.StartsWith(r, Shortened(author, maxLength, truncate)) &&
              Text.EndsWith(r, AbbrOpen + author + AbbrClose) &&
              |r| == |Shortened(author, maxLength, truncate)| + |AbbrOpen + author + AbbrClose|
  {
    if |author| <= maxLength then author
    else
      var short, abbr := Shortened(author, maxLength, truncate), AbbrOpen + author + AbbrClose;
      assert (short + abbr)[..|short|] == short && (short + abbr)[|short|..] == abbr;
      short + abbr
  }

  /** A character of a split piece is a character of the split text. */
  lemma SplitPieceChars(s: string, sep: char, k: nat, c: char)
    requires k < |Text.Split(s, sep)| && c in Text.Split(s, sep)[k]
    ensures c in s
  {
    var parts := Text.Split(s, sep);
    var joined := Text.Join(parts, [sep]);
    Text.JoinContains(parts, [sep], k);
    var at: nat :| Text.OccursAt(parts[k], joined, at);
    var m :| 0 <= m < |parts[k]| && parts[k][m] == c;
    assert joined[at + m] == joined[at..at + |parts[k]|][m] == c;
    Text.JoinSplit(s, sep);
    assert s[at + m] == c;
  }

  /** A long author value with a separator keeps exactly its first four
      names, and they read back from the `;`-joined short form. */
  lemma {:induction false} ShortenedNames(author: string, maxLength: nat, truncate: (string, nat) -> string)
    requires ';' in author || ',' in author
    ensures var sep := if ';' in author then ';' else ',';
            && Text.Split(Shortened(author, maxLength, truncate), ';') == FirstFour(Text.Split(author, sep))
            && |Text.Split(Shortened(author, maxLength, truncate), ';')| <= 4
  {
    var sep := if ';' in author then ';' else ',';
    var parts := Text.Split(author, sep);
    var kept := FirstFour(parts);
    forall k | 0 <= k < |kept| ensures ';' !in kept[k] {
      assert kept[k] == parts[k];
      if ';' in parts[k] {
        SplitPieceChars(author, sep, k, ';');
      }
    }
    Text.SplitJoin(kept, ';');
  }

  predicate StrictlySorted(s: seq<string>)
  {
    forall i, j :: 0 <= i < j < |s| ==> Text.Below(s[i], s[j])
  }

  /** Adds `x` to a strictly sorted list unless it is already there. */
  function Insert(s: seq<string>, x: string): (r: seq<string>)
    requires StrictlySorted(s)
    ensures StrictlySorted(r)
    ensures forall y :: y in r <==> y in s || y == x
    decreases |s|
  {
    if |s| == 0 then [x]
    else if s[0] == x then s
    else if Text.Below(x, s[0]) then
      forall j | 0 <= j < |s| ensures Text.Below(x, s[j]) {
        if j > 0 {
          Text.BelowTransitive(x, s[0], s[j]);
        }
      }
      [x] + s
    else
      var rest := Insert(s[1..], x);
      Text.BelowTotal(x, s[0]);
      forall y | y in rest ensures Text.Below(s[0], y) {
        if y != x {
          var k :| 0 <= k < |s[1..]| && s[1..][k] == y;
          assert s[k + 1] == y;
        }
      }
      [s[0]] + rest
  }

  /** `sorted(set(xs))`. */
  function SortUnique(xs: seq<string>): (r: seq<string>)
    ensures StrictlySorted(r)
    ensures forall y :: y in r <==> y in xs
  {
    if |xs| == 0 then []
    else
      var r := Insert(SortUnique(xs[..|xs| - 1]), xs[|xs| - 1]);
      assert xs == xs[..|xs| - 1] + [xs[|xs| - 1]];
      r
  }

  /** The head of a strictly sorted list is below every other element. */
  lemma SortedHeadLeast(s: seq<string>, y: string)
    requires StrictlySorted(s) && y in s
    ensures y == s[0] || Text.Below(s[0], y)
  {
    var i :| 0 <= i < |s| && s[i] == y;
  }

  lemma NotBothBelow(x: string, y: string)
    ensures !(Text.Below(x, y) && Text.Below(y, x))
  {
    if Text.Below(x, y) {
      Text.BelowAsymmetric(x, y);
    }
  }

  lemma NonEmptyHasElement(s: seq<string>)
    ensures (forall y :: y !in s) ==> |s| == 0
  {
    if |s| > 0 {
      assert s[0] in s;
    }
  }

  /** A set has one strictly sorted arrangement. */
  lemma {:induction false} SortedUnique(a: seq<string>, b: seq<string>)
    requires StrictlySorted(a) && StrictlySorted(b)
    requires forall y :: y in a <==> y in b
    ensures a == b
    decreases |a|
  {
    if |a| == 0 {
      NonEmptyHasElement(b);
    } else {
      assert a[0] in b;
      assert b[0] in a;
      SortedHeadLeast(a, b[0]);
      SortedHeadLeast(b, a[0]);
      NotBothBelow(a[0], b[0]);
      Text.BelowIrreflexive(a[0]);
      assert a[0] == b[0];
      forall y ensures y in a[1..] <==> y in b[1..] {
        Text.BelowIrreflexive(y);
        if y in a[1..] {
          var i :| 0 <= i < |a[1..]| && a[1..][i] == y;
          assert Text.Below(a[0], a[i + 1]);
          assert y in b;
          var j :| 0 <= j < |b| && b[j] == y;
          assert b[1..][j - 1] == y;
        }
        if y in b[1..] {
          var i :| 0 <= i < |b[1..]| && b[1..][i] == y;
          assert Text.Below(b[0], b[i + 1]);
          assert y in a;
          var j :| 0 <= j < |a| && a[j] == y;
          assert a[1..][j - 1] == y;
        }
      }
      SortedUnique(a[1..], b[1..]);
      assert a == [a[0]] + a[1..] && b == [b[0]] + b[1..];
    }
  }

  /** The labels of the packages' authors, de-duplicated and sorted. */
  function AuthorLabels(authors: seq<string>, maxLength: nat, truncate: (string, nat) -> string): (r: seq<string>)
    ensures StrictlySorted(r)
    ensures forall y :: y in r <==> exists i :: 0 <= i < |authors| && y == Label(authors[i], maxLength, truncate)
  {
    var labels := seq(|authors|, i requires 0 <= i < |authors| => Label(authors[i], maxLength, truncate));
    var r := SortUnique(labels);
    forall y ensures y in labels <==> exists i :: 0 <= i < |authors| && y == Label(authors[i], maxLength, truncate) {
      if y in labels {
        var i :| 0 <= i < |labels| && labels[i] == y;
      }
      if exists i :: 0 <= i < |authors| && y == Label(authors[i], maxLength, truncate) {
        var i :| 0 <= i < |authors| && y == Label(authors[i], maxLength, truncate);
        assert labels[i] == y;
      }
    }
    r
  }

  /** `sub` occurs somewhere in `s`. */
  predicate Occurs(sub: string, s: string)
  {
    exists at: nat :: at <= |s| && Text.OccursAt(sub, s, at)
  }

  /** `_get_authors`: the labels joined with `, `. */
  function AuthorsText(authors: seq<string>, maxLength: nat, truncate: (string, nat) -> string): (r: string)
    ensures |authors| == 0 ==> r == ""
    ensures forall i :: 0 <= i < |authors| ==> Occurs(Label(authors[i], maxLength, truncate), r)
  {
    var labels := AuthorLabels(authors, maxLength, truncate);
    forall i | 0 <= i < |authors|
      ensures Occurs(Label(authors[i], maxLength, truncate), Text.Join(labels, ", "))
    {
      var y := Label(authors[i], maxLength, truncate);
      assert y in labels;
      var k :| 0 <= k < |labels| && labels[k] == y;
      Text.JoinContains(labels, ", ", k);
    }
    Text.Join(labels, ", ")
  }

  /** The author line depends on which authors occur, not on the order of the
      packages or on repeats. */
  lemma AuthorsTextOrderFree(a: seq<string>, b: seq<string>, maxLength: nat, truncate: (string, nat) -> string)
    requires forall x :: x in a <==> x in b
    ensures AuthorsText(a, maxLength, truncate) == AuthorsText(b, maxLength, truncate)
  {
    var la := AuthorLabels(a, maxLength, truncate);
    var lb := AuthorLabels(b, maxLength, truncate);
    forall y ensures y in la <==> y in lb {
      if y in la {
        var i :| 0 <= i < |a| && y == Label(a[i], maxLength, truncate);
        assert a[i] in a;
        var j :| 0 <= j < |b| && b[j] == a[i];
      }
      if y in lb {
        var i :| 0 <= i < |b| && y == Label(b[i], maxLength, truncate);
        assert b[i] in b;
        var j :| 0 <= j < |a| && a[j] == b[i];
      }
    }
    SortedUnique(la, lb);
  }

  // ---------------------------------------------------------------- page

  /** What the page needs of the package `get_resource_and_package` returns. */
  datatype Package = Package(author: string, doi: string, doiStatus: bool)

  datatype PageError =
    | NotRecognised  // abort(404)
    | NoResources    // IndexError on `get_resource_ids()[0]`

  /** The part of the landing page context `get` assembles itself. */
  datatype Page = Page(
    record: QueryDoi,
    doi: string,
    resourceId: string,
    package: Package,
    packageDoi: Option<string>,
    authors: string,
    version: Option<int>)

  /** `LandingPageController.get`; `resourcePackage` stands for
      `get_resource_and_package` and `truncate` for jinja's `do_truncate`. */
  function GetPage(table: QueryDoiTable, dataCentre: string, identifier: string,
                   resourcePackage: string -> Package,
                   truncate: (string, nat) -> string): (r: Result<Page, PageError>)
    ensures var doi := dataCentre + "/" + identifier;
            && (r == Failure(NotRecognised) <==> !HasDoi(table, doi))
            && (r.Success? ==>
                  && Some(r.value.record) == FindByDoi(table, doi)
                  && r.value.doi == doi && r.value.record.doi == doi
                  && |GetResourceIds(r.value.record)| >= 1
                  && r.value.resourceId == GetResourceIds(r.value.record)[0]
                  && r.value.version == GetRoundedVersions(r.value.record)[0]
                  && r.value.package == resourcePackage(r.value.resourceId)
                  && (r.value.packageDoi.Some? <==> r.value.package.doiStatus)
                  && (r.value.packageDoi.Some? ==> r.value.packageDoi.value == r.value.package.doi)
                  && r.value.authors == AuthorsText([r.value.package.author], MaxLength, truncate))
            && (r == Failure(NoResources) <==>
                  HasDoi(table, doi) && |GetResourceIds(FindByDoi(table, doi).value)| == 0)
  {
    var doi := dataCentre + "/" + identifier;
    match FindByDoi(table, doi)
    case None => Failure(NotRecognised)
    case Some(record) =>
      if |record.resourcesAndVersions| == 0 then Failure(NoResources)
      else
        var resourceId := GetResourceIds(record)[0];
        var version := GetRoundedVersions(record)[0];
        var package := resourcePackage(resourceId);
        Success(Page(record, doi, resourceId, package,
                     if package.doiStatus then Some(package.doi) else None,
                     AuthorsText([package.author], MaxLength, truncate),
                     version))
  }

  /** A record appended under a DOI the table did not have is the one found under it. */
  lemma FindAppended(t: QueryDoiTable, rec: QueryDoi)
    requires !HasDoi(t, rec.doi)
    ensures FindByDoi(t + [rec], rec.doi) == Some(rec)
  {
    var t' := t + [rec];
    assert t'[|t|] == rec;
    var found := FindByDoi(t', rec.doi);
    var i :| 0 <= i < |t'| && t'[i] == found.value && t'[i].doi == rec.doi &&
             forall j :: 0 <= j < i ==> t'[j].doi != rec.doi;
    assert forall j :: 0 <= j < |t| ==> t'[j] == t[j];
  }

  /** A new record with a splittable DOI comes up on its landing page. */
  lemma NewRecordResolves(table: QueryDoiTable, rec: QueryDoi,
                          resourcePackage: string -> Package, truncate: (string, nat) -> string)
    requires !HasDoi(table, rec.doi) && |rec.resourcesAndVersions| >= 1
    requires Doi.SplitDoi(rec.doi).Some?
    ensures var (dc, id) := Doi.SplitDoi(rec.doi).value;
            var page := GetPage(table + [rec], dc, id, resourcePackage, truncate);
            && page.Success?
            && page.value.record == rec && page.value.resourceId == GetResourceIds(rec)[0]
  {
    FindAppended(table, rec);
    assert (table + [rec])[|table|] == rec;
  }

  /** A DOI this extension has just minted resolves: the data centre and
      identifier it registered the landing page under bring up the new record. */
  lemma MintedDoiResolves(resourceIds: seq<string>, q: Doi.DatastoreQuery, table: QueryDoiTable, env: Doi.Environment,
                          resourcePackage: string -> Package, truncate: (string, nat) -> string)
    requires env.prefix.Some? && '/' !in env.prefix.value
    ensures var o := Doi.Mint(resourceIds, q, table, env);
            o.result.Success? && o.result.value.0 ==>
              var rec := o.result.value.1;
              && Doi.SplitDoi(rec.doi).Some?
              && var (dc, id) := Doi.SplitDoi(rec.doi).value;
                 var page := GetPage(o.table, dc, id, resourcePackage, truncate);
                 && page.Success?
                 && page.value.record == rec && page.value.resourceId == resourceIds[0]
  {
    var o := Doi.Mint(resourceIds, q, table, env);
    if o.result.Success? && o.result.value.0 {
      var rec := o.result.value.1;
      var prefix := env.prefix.value;
      assert Doi.IsNewMint(resourceIds[0], q, table, env, o);
      Doi.CandidateShapeExact(prefix, rec.doi);
      var d: Doi.Draw :| Doi.CandidateDoi(prefix, d) == rec.doi;
      Doi.SplitCandidate(prefix, d);
      NewRecordResolves(table, rec, resourcePackage, truncate);
      assert GetResourceIds(rec)[0] == resourceIds[0];
    }
  }
}

=== FILE: logic_utils.dfy ===
/** Checking that requested resources are public datastore resources and
    rounding each one's requested version to a version that exists. The
    database, the `datastore_is_datastore_resource` action and the
    `datastore_get_rounded_version` action are inputs. */
module LogicUtils {
  import opened Wrappers
  import Text

  /** What the database and the datastore report: the ids of active resources
      in active public packages, and which resources are datastore resources. */
  datatype Catalog = Catalog(activePublic: set<string>, isDatastoreResource: string -> bool)

  predicate IsPublic(cat: Catalog, id: string)
  {
    id in cat.activePublic && cat.isDatastoreResource(id)
  }

  /** `if only:` is false for both `None` and an empty collection. */
  predicate Restricts(only: Option<set<string>>)
  {
    only.Some? && only.value != {}
  }

  /** `get_public_datastore_resources`. */
  function GetPublicDatastoreResources(cat: Catalog, only: Option<set<string>>): (r: set<string>)
    ensures forall id :: id in r <==> IsPublic(cat, id) && (Restricts(only) ==> id in only.value)
  {
    var rows := if Restricts(only) then cat.activePublic * only.value else cat.activePublic;
    set id | id in rows && cat.isDatastoreResource(id)
  }

  /** `get_invalid_resources`: the requested ids that are not public datastore resources. */
  function GetInvalidResources(cat: Catalog, ids: seq<string>): (r: set<string>)
    ensures forall id :: id in r <==> id in ids && !IsPublic(cat, id)
    ensures forall id :: id in r ==> id in ids
  {
    var requested := set id | id in ids;
    requested - GetPublicDatastoreResources(cat, Some(requested))
  }

  /** The request parameters of `extract_resource_ids_and_versions`. */
  datatype Request = Request(
    version: Option<int>,
    resourceIds: Option<seq<string>>,
    resourcesAndVersions: Option<map<string, int>>)

  datatype ExtractError =
    | SomeNotPublic(invalid: set<string>)  // ValidationError; the ids are those the corrected message lists
    | NoPublicResources                    // ValidationError: no public resources are available

  /** The result, and the `(resource_id, version)` pairs sent to the rounding action. */
  datatype Extraction = Extraction(
    result: Result<map<string, int>, ExtractError>,
    roundingRequests: set<(string, int)>)

  /** The requested ids: the map's keys when a map is given, else the list, else none. */
  function Requested(req: Request): (r: set<string>)
    ensures req.resourcesAndVersions.Some? ==> r == req.resourcesAndVersions.value.Keys
    ensures req.resourcesAndVersions.None? && req.resourceIds.None? ==> r == {}
    ensures req.resourcesAndVersions.None? && req.resourceIds.Some? ==>
              forall id :: id in r <==> id in req.resourceIds.value
  {
    match req.resourcesAndVersions
    case Some(m) => m.Keys
    case None =>
      match req.resourceIds
      case Some(ids) => set id | id in ids
      case None => {}
  }

  /** The version a resource is rounded at: its own from the map, otherwise
      the one requested version, defaulting to the current time. */
  function VersionFor(req: Request, now: int, id: string): int
  {
    match req.resourcesAndVersions
    case Some(m) => if id in m then m[id] else now
    case None => if req.version.Some? then req.version.value else now
  }

  /** The resources rounded: the map's keys, otherwise every validated resource. */
  function RoundedIds(cat: Catalog, req: Request): set<string>
  {
    match req.resourcesAndVersions
    case Some(m) => m.Keys
    case None => GetPublicDatastoreResources(cat, Some(Requested(req)))
  }

  /** `extract_resource_ids_and_versions`; `now` stands for
      `to_timestamp(datetime.now())` and `round` for the rounding action. */
  function Extract(cat: Catalog, req: Request, now: int, round: (string, int) -> Option<int>): (x: Extraction)
    ensures x.result.Failure? ==> x.roundingRequests == {}
    ensures (exists id :: id in Requested(req) && !IsPublic(cat, id)) <==>
              x.result.Failure? && x.result.error.SomeNotPublic?
    ensures x.result.Failure? && x.result.error.SomeNotPublic? ==>
              forall id :: id in x.result.error.invalid <==> id in Requested(req) && !IsPublic(cat, id)
    ensures x.result == Failure(NoPublicResources) <==>
              Requested(req) == {} && GetPublicDatastoreResources(cat, None) == {}
    ensures x.result.Success? ==>
              forall id :: id in x.result.value ==>
                && id in RoundedIds(cat, req) && IsPublic(cat, id)
                && round(id, VersionFor(req, now, id)) == Some(x.result.value[id])
    ensures x.result.Success? ==>
              forall id :: id in RoundedIds(cat, req) && round(id, VersionFor(req, now, id)).Some? ==>
                id in x.result.value
    ensures x.result.Success? ==>
              forall id, v :: (id, v) in x.roundingRequests <==> id in RoundedIds(cat, req) && v == VersionFor(req, now, id)
  {
    var requested := Requested(req);
    var validated := GetPublicDatastoreResources(cat, Some(requested));
    var bad := requested - validated;
    if bad != {} then Extraction(Failure(SomeNotPublic(bad)), {})
    else
      assert forall id :: id in requested ==> IsPublic(cat, id) by {
        forall id | id in requested ensures IsPublic(cat, id) {
          assert id !in bad;
        }
      }
      if validated == {} then Extraction(Failure(NoPublicResources), {})
      else
      var ids := RoundedIds(cat, req);
      var rounded := map id | id in ids && round(id, VersionFor(req, now, id)).Some? ::
                       round(id, VersionFor(req, now, id)).value;
      Extraction(Success(rounded), set id | id in ids :: (id, VersionFor(req, now, id)))
  }

  /** With no ids requested at all, every public datastore resource is rounded
      at the one requested version. */
  lemma EmptyRequestCoversAllPublic(cat: Catalog, req: Request, now: int, round: (string, int) -> Option<int>)
    requires req.resourcesAndVersions.None?
    requires req.resourceIds.None? || req.resourceIds == Some([])
    requires exists id :: IsPublic(cat, id)
    ensures var x := Extract(cat, req, now, round);
            && x.result.Success?
            && forall id :: id in x.result.value <==>
                 IsPublic(cat, id) && round(id, if req.version.Some? then req.version.value else now).Some?
  {
    var id :| IsPublic(cat, id);
    assert Requested(req) == {};
    assert id in GetPublicDatastoreResources(cat, None);
  }

  /** The fixed text of the "not public" ValidationError. */
  const InvalidResourcesText: string :=
    "Some of the resources requested are private or not active,DOIs can only be created using public, active resources. Invalid resources: "

  /** The message as logic/utils.py:69-71 builds it: `u', '.format(bad)` has no
      placeholder, so whatever the invalid ids are, the message ends in ", ". */
  function InvalidResourcesMessageAsWritten(invalid: seq<string>): string
  {
    InvalidResourcesText + ", "
  }

  /** The message as evidently intended: the invalid ids joined with ", ". */
  function InvalidResourcesMessage(invalid: seq<string>): string
  {
    InvalidResourcesText + Text.Join(invalid, ", ")
  }

  /** The message as written cannot tell two different invalid resources
      apart, where the corrected message does. */
  lemma AsWrittenMessageDropsIds()
    ensures InvalidResourcesMessageAsWritten(["res-a"]) == InvalidResourcesMessageAsWritten(["res-b"])
    ensures InvalidResourcesMessage(["res-a"]) != InvalidResourcesMessage(["res-b"])
  {
    var a := InvalidResourcesMessage(["res-a"]);
    var b := InvalidResourcesMessage(["res-b"]);
    assert a[|a| - 1] == 'a' && b[|b| - 1] == 'b';
  }

  /** The corrected message names every invalid resource. */
  lemma MessageListsEveryId(invalid: seq<string>, k: nat)
    requires k < |invalid|
    ensures exists at: nat :: Text.OccursAt(invalid[k], InvalidResourcesMessage(invalid), at)
  {
    var j := Text.Join(invalid, ", ");
    Text.JoinContains(invalid, ", ", k);
    var at: nat :| Text.OccursAt(invalid[k], j, at);
    var m := InvalidResourcesMessage(invalid);
    var off := |InvalidResourcesText|;
    assert m[off + at..off + at + |invalid[k]|] == j[at..at + |invalid[k]|];
    assert Text.OccursAt(invalid[k], m, off + at);
  }
}

=== FILE: model.dfy ===
/** The two tables of the extension: `query_doi` (one row per minted DOI)
    and `query_doi_stat` (one row per recorded use of a DOI). */
module Model {
  import opened Wrappers
  import opened QueryParams

  /** One entry of the JSON object `resources_and_versions`; the rounded
      version is `null` when the resource's datastore index is empty. */
  datatype ResourceVersion = ResourceVersion(resourceId: string, version: Option<int>)

  /** The resource id -> rounded version object, in its stored key order. */
  type ResourceVersions = seq<ResourceVersion>

  /** A `query_doi` row. Nullable columns are `Option`s; the surrogate `id`
      is the row's position in the table. */
  datatype QueryDoi = QueryDoi(
    doi: string,
    resourcesAndVersions: ResourceVersions,
    timestamp: int,
    query: Params,
    queryHash: string,
    requestedVersion: Option<int>,
    count: int,
    queryVersion: Option<string>,
    resourceCounts: Option<map<string, int>>)

  /** A `query_doi_stat` row. */
  datatype QueryDoiStat = QueryDoiStat(
    doi: string,
    action: Option<string>,
    domain: Option<string>,
    identifier: Option<string>,
    timestamp: int)

  /** `list(resources_and_versions.keys())`. */
  function GetResourceIds(q: QueryDoi): seq<string>
  {
    seq(|q.resourcesAndVersions|, i requires 0 <= i < |q.resourcesAndVersions| =>
      q.resourcesAndVersions[i].resourceId)
  }

  /** `list(resources_and_versions.values())`. */
  function GetRoundedVersions(q: QueryDoi): seq<Option<int>>
  {
    seq(|q.resourcesAndVersions|, i requires 0 <= i < |q.resourcesAndVersions| =>
      q.resourcesAndVersions[i].version)
  }

  /** The key list and the value list have the same length and pair up,
      position by position, into the stored object. */
  lemma ProjectionsCorrespond(q: QueryDoi)
    ensures |GetResourceIds(q)| == |GetRoundedVersions(q)|
    ensures forall i :: 0 <= i < |GetResourceIds(q)| ==>
              q.resourcesAndVersions[i] == ResourceVersion(GetResourceIds(q)[i], GetRoundedVersions(q)[i])
  {
  }

  /** The stored object read as a JSON object (key order forgotten). With a
      repeated resource id the first entry wins, where a Python dict keeps the
      last; a single-resource mint never stores a repeated id. */
  function VersionMap(rv: ResourceVersions): (m: map<string, Option<int>>)
    ensures forall i :: 0 <= i < |rv| ==> rv[i].resourceId in m
    ensures forall k :: k in m ==> exists i :: 0 <= i < |rv| && rv[i].resourceId == k && rv[i].version == m[k]
  {
    if |rv| == 0 then map[]
    else
      var m := VersionMap(rv[1..])[rv[0].resourceId := rv[0].version];
      assert forall i :: 1 <= i < |rv| ==> rv[i] == rv[1..][i - 1];
      m
  }

  /** `QueryDOI.on_resource(r)`: the row's object has `r` as a key. */
  predicate OnResource(q: QueryDoi, resourceId: string)
    ensures OnResource(q, resourceId) <==> resourceId in GetResourceIds(q)
  {
    var rv := q.resourcesAndVersions;
    var ids := GetResourceIds(q);
    assert resourceId in VersionMap(rv) ==> resourceId in ids by {
      if resourceId in VersionMap(rv) {
        var i :| 0 <= i < |rv| && rv[i].resourceId == resourceId;
        assert ids[i] == resourceId;
      }
    }
    assert resourceId in ids ==> exists i :: 0 <= i < |ids| && ids[i] == resourceId;
    resourceId in VersionMap(rv)
  }

  type QueryDoiTable = seq<QueryDoi>

  predicate HasDoi(t: QueryDoiTable, doi: string)
  {
    exists i :: 0 <= i < |t| && t[i].doi == doi
  }

  /** The `unique=True` constraint on `query_doi.doi`. */
  predicate DoiUnique(t: QueryDoiTable)
  {
    forall i, j :: 0 <= i < j < |t| ==> t[i].doi != t[j].doi
  }

  datatype DbError = UniqueViolation(column: string)

  /** Saving a new `query_doi` row: refused when its DOI is already stored. */
  function InsertQueryDoi(t: QueryDoiTable, row: QueryDoi): (r: Result<QueryDoiTable, DbError>)
    ensures r.Success? <==> !HasDoi(t, row.doi)
    ensures r.Success? ==> r.value == t + [row]
    ensures r.Success? && DoiUnique(t) ==> DoiUnique(r.value)
    ensures r.Failure? ==> r.error == UniqueViolation("doi")
  {
    if HasDoi(t, row.doi) then Failure(UniqueViolation("doi")) else Success(t + [row])
  }

  /** `query(QueryDOI).filter(QueryDOI.doi == doi).first()`, first in table order. */
  function FindByDoi(t: QueryDoiTable, doi: string): (r: Option<QueryDoi>)
    ensures r.None? <==> !HasDoi(t, doi)
    ensures r.Some? ==> exists i :: 0 <= i < |t| && t[i] == r.value && t[i].doi == doi &&
                          forall j :: 0 <= j < i ==> t[j].doi != doi
  {
    if |t| == 0 then None
    else if t[0].doi == doi then Some(t[0])
    else
      var r := FindByDoi(t[1..], doi);
      assert forall i :: 1 <= i < |t| ==> t[i] == t[1..][i - 1];
      r
  }

  function StatCount(t: seq<QueryDoiStat>, doi: string): nat
  {
    if |t| == 0 then 0 else StatCount(t[..|t| - 1], doi) + (if t[|t| - 1].doi == doi then 1 else 0)
  }

  /** Saving a `query_doi_stat` row never clashes: `doi` is indexed but not
      unique, so every save adds one more stat for its DOI. */
  function InsertStat(t: seq<QueryDoiStat>, s: QueryDoiStat): (r: seq<QueryDoiStat>)
    ensures StatCount(r, s.doi) == StatCount(t, s.doi) + 1
    ensures forall d :: d != s.doi ==> StatCount(r, d) == StatCount(t, d)
    ensures |r| == |t| + 1 && r[..|t|] == t && r[|t|] == s
  {
    var r := t + [s];
    assert r[..|r| - 1] == t;
    r
  }

  /** A column of a table definition. The two column lists below record
      model.py's `nullable` and `unique` flags: the nullable columns of
      `query_doi` are the `Option` fields of `QueryDoi`, and its one unique
      column besides `id`, `doi`, is what `InsertQueryDoi` checks. */
  datatype Column = Column(name: string, nullable: bool, unique: bool)

  const QueryDoiColumns: seq<Column> := [
    Column("id", false, true),
    Column("doi", false, true),
    Column("resources_and_versions", false, false),
    Column("timestamp", false, false),
    Column("query", false, false),
    Column("query_hash", false, false),
    Column("requested_version", true, false),
    Column("count", false, false),
    Column("query_version", true, false),
    Column("resource_counts", true, false)
  ]

  const QueryDoiStatColumns: seq<Column> := [
    Column("id", false, true),
    Column("doi", false, false),
    Column("action", true, false),
    Column("domain", true, false),
    Column("identifier", true, false),
    Column("timestamp", false, false)
  ]

  function RequiredColumns(cols: seq<Column>): set<string>
  {
    if |cols| == 0 then {}
    else (if cols[0].nullable then {} else {cols[0].name}) + RequiredColumns(cols[1..])
  }

  function UniqueColumns(cols: seq<Column>): set<string>
  {
    if |cols| == 0 then {}
    else (if cols[0].unique then {cols[0].name} else {}) + UniqueColumns(cols[1..])
  }

  /** In `query_doi` the DOI is required and unique, the query identity and
      count are required, and the version and count extras are optional. */
  lemma QueryDoiConstraints()
    ensures RequiredColumns(QueryDoiColumns) ==
              {"id", "doi", "resources_and_versions", "timestamp", "query", "query_hash", "count"}
    ensures UniqueColumns(QueryDoiColumns) == {"id", "doi"}
  {
  }

  /** In `query_doi_stat` the DOI is required but not unique. */
  lemma QueryDoiStatConstraints()
    ensures RequiredColumns(QueryDoiStatColumns) == {"id", "doi", "timestamp"}
    ensures UniqueColumns(QueryDoiStatColumns) == {"id"}
  {
  }
}

=== FILE: query_params.dfy ===
/** The shape of a stored query dictionary: scalar parameters plus nested
    dictionaries such as `filters`, whose values are one scalar or a list. */
module QueryParams {
  import Text
  import opened Assoc

  /** A JSON scalar as the query holds it. */
  datatype Scalar = Str(s: string) | Num(n: int)

  /** `'{}'.format(v)`. */
  function ScalarText(v: Scalar): string
  {
    match v
    case Str(s) => s
    case Num(n) => Text.IntToString(n)
  }

  datatype FilterValue = One(value: Scalar) | Many(values: seq<Scalar>)

  type Filters = Assoc<FilterValue>

  /** A top-level parameter: a scalar, or a dictionary (`isinstance(value, dict)`). */
  datatype ParamValue = Plain(scalar: Scalar) | Nested(entries: Filters)

  type Params = Assoc<ParamValue>

  /** The filter field that carries a version inside `filters`. */
  const VersionField: string := "__version__"
}

=== FILE: route_helpers.dfy ===
/** Helpers of the landing-page routes: the de-duplicated author list and
    the query-string parameters of a stored query at a version. */
module RouteHelpers {
  import opened Wrappers
  import opened Assoc
  import opened QueryParams
  import Text

  /** The authors one package's `author` value contributes: split on `;` if
      it has one, otherwise on `,` if it has one, otherwise the whole value. */
  function AuthorPieces(author: string): (r: seq<string>)
    ensures |r| >= 1
    ensures ';' in author ==> Text.Join(r, ";") == author && forall i :: 0 <= i < |r| ==> ';' !in r[i]
    ensures ';' !in author && ',' in author ==>
              Text.Join(r, ",") == author && forall i :: 0 <= i < |r| ==> ',' !in r[i]
    ensures ';' !in author && ',' !in author ==> r == [author]
  {
    if ';' in author then
      Text.JoinSplit(author, ';');
      Text.Split(author, ';')
    else if ',' in author then
      Text.JoinSplit(author, ',');
      Text.Split(author, ',')
    else [author]
  }

  /** Every author piece of the packages, in package order. */
  function AllPieces(authors: seq<string>): seq<string>
  {
    if |authors| == 0 then [] else AllPieces(authors[..|authors| - 1]) + AuthorPieces(authors[|authors| - 1])
  }

  predicate NoDuplicates(xs: seq<string>)
  {
    forall i, j :: 0 <= i < j < |xs| ==> xs[i] != xs[j]
  }

  /** `r` lists each element of `xs` once, in the order of first occurrence. */
  ghost predicate DedupOf(r: seq<string>, xs: seq<string>)
  {
    && NoDuplicates(r)
    && (forall x :: x in r <==> x in xs)
    && (forall i, j :: 0 <= i < j < |r| && r[i] in xs && r[j] in xs ==>
          Text.IndexOf(xs, r[i]) < Text.IndexOf(xs, r[j]))
  }

  lemma IndexOfAppend(xs: seq<string>, x: string, y: string)
    requires y in xs
    ensures Text.IndexOf(xs + [x], y) == Text.IndexOf(xs, y)
  {
    var i := Text.IndexOf(xs, y);
    var k := Text.IndexOf(xs + [x], y);
    assert (xs + [x])[i] == y;
    assert forall j :: 0 <= j < i ==> (xs + [x])[j] == xs[j];
  }

  /** Adding one more key to an ordered de-duplication. */
  lemma DedupStep(r: seq<string>, xs: seq<string>, x: string)
    requires DedupOf(r, xs)
    ensures DedupOf(if x in r then r else r + [x], xs + [x])
  {
    var xs' := xs + [x];
    forall y | y in xs ensures Text.IndexOf(xs', y) == Text.IndexOf(xs, y) {
      IndexOfAppend(xs, x, y);
    }
    if x !in r {
      var r' := r + [x];
      assert x !in xs;
      assert forall y :: y in xs ==> y in xs';
      assert Text.IndexOf(xs', x) == |xs|;
      forall i, j | 0 <= i < j < |r'| && r'[i] in xs' && r'[j] in xs'
        ensures Text.IndexOf(xs', r'[i]) < Text.IndexOf(xs', r'[j])
      {
        if j < |r| {
          assert r'[i] == r[i] && r'[j] == r[j];
        } else {
          assert r'[i] == r[i] && r[i] in xs;
        }
      }
    }
  }

  /** The inner loop of `get_authors`: add one package's pieces to the list so far. */
  function AddPieces(r: seq<string>, pieces: seq<string>): seq<string>
    decreases |pieces|
  {
    if |pieces| == 0 then r
    else AddPieces(if pieces[0] in r then r else r + [pieces[0]], pieces[1..])
  }

  lemma {:induction false} AddPiecesDedup(r: seq<string>, seen: seq<string>, pieces: seq<string>)
    requires DedupOf(r, seen)
    ensures DedupOf(AddPieces(r, pieces), seen + pieces)
    decreases |pieces|
  {
    if |pieces| > 0 {
      var r1 := if pieces[0] in r then r else r + [pieces[0]];
      var seen1 := seen + [pieces[0]];
      DedupStep(r, seen, pieces[0]);
      AddPiecesDedup(r1, seen1, pieces[1..]);
      assert seen1 + pieces[1..] == seen + pieces;
      assert AddPieces(r, pieces) == AddPieces(r1, pieces[1..]);
    } else {
      assert seen + pieces == seen;
    }
  }

  /** `get_authors`: the packages' authors split, de-duplicated, first occurrence first. */
  method GetAuthors(authors: seq<string>) returns (r: seq<string>)
    ensures NoDuplicates(r)
    ensures forall x :: x in r <==> x in AllPieces(authors)
    ensures forall i, j :: 0 <= i < j < |r| ==>
              Text.IndexOf(AllPieces(authors), r[i]) < Text.IndexOf(AllPieces(authors), r[j])
  {
    r := [];
    var k := 0;
    while k < |authors|
      invariant k <= |authors|
      invariant DedupOf(r, AllPieces(authors[..k]))
    {
      assert authors[..k + 1][..k] == authors[..k];
      AddPiecesDedup(r, AllPieces(authors[..k]), AuthorPieces(authors[k]));
      r := AddPieces(r, AuthorPieces(authors[k]));
      k := k + 1;
    }
    assert authors[..k] == authors;
  }

  /** `copy.deepcopy` keeps the caller's dict intact; with no version asked
      for, a `__version__` filter is dropped. */
  function Processed(param: string, value: ParamValue, version: Option<int>): ParamValue
  {
    if param == "filters" && value.Nested? && version.None? then Nested(Delete(value.entries, VersionField))
    else value
  }

  /** The value the last entry for `param` gives it, as a later dict assignment overrides. */
  function LastValue(entries: Params, param: string): Option<ParamValue>
  {
    if |entries| == 0 then None
    else
      match LastValue(entries[1..], param)
      case Some(v) => Some(v)
      case None => if entries[0].0 == param then Some(entries[0].1) else None
  }

  /** A key the extras give takes the extras' value; any other keeps the params'. */
  lemma {:induction false} ExtrasOverride(params: Params, extras: Params, param: string)
    ensures LastValue(params + extras, param) ==
              if LastValue(extras, param).Some? then LastValue(extras, param) else LastValue(params, param)
    decreases |params|
  {
    if |params| > 0 {
      assert (params + extras)[1..] == params[1..] + extras;
      ExtrasOverride(params[1..], extras, param);
    } else {
      assert params + extras == extras;
    }
  }

  /** A non-dict `filters` entry occurs. */
  predicate PlainFiltersIn(entries: Params)
  {
    |entries| > 0 && ((entries[0].0 == "filters" && entries[0].1.Plain?) || PlainFiltersIn(entries[1..]))
  }

  lemma {:induction false} LastFiltersIsDict(entries: Params)
    ensures !PlainFiltersIn(entries) && LastValue(entries, "filters").Some? ==>
              LastValue(entries, "filters").value.Nested?
    decreases |entries|
  {
    if |entries| > 0 {
      LastFiltersIsDict(entries[1..]);
    }
  }

  datatype EncodeError = FiltersNotADict  // AttributeError or TypeError on a `filters` that is not a dict

  /** The first loop of `encode_params` over the chained params and extras. */
  function Gather(entries: Params, version: Option<int>, acc: Params): Result<Params, EncodeError>
    decreases |entries|
  {
    if |entries| == 0 then Success(acc)
    else
      var (param, value) := entries[0];
      if param == "version" then Gather(entries[1..], version, acc)
      else if param == "filters" && value.Plain? && version.None? then Failure(FiltersNotADict)
      else Gather(entries[1..], version, Put(acc, param, Processed(param, value, version)))
  }

  lemma {:induction false} GatherSpec(entries: Params, version: Option<int>, acc: Params)
    requires "version" !in Keys(acc)
    ensures var r := Gather(entries, version, acc);
            && (r.Failure? <==> version.None? && PlainFiltersIn(entries))
            && (r.Success? ==> "version" !in Keys(r.value))
            && (r.Success? ==> forall p :: p != "version" ==>
                  Get(r.value, p) ==
                    match LastValue(entries, p)
                    case Some(v) => Some(Processed(p, v, version))
                    case None => Get(acc, p))
    decreases |entries|
  {
    if |entries| > 0 {
      var (param, value) := entries[0];
      if param == "version" {
        GatherSpec(entries[1..], version, acc);
      } else if !(param == "filters" && value.Plain? && version.None?) {
        var acc' := Put(acc, param, Processed(param, value, version));
        GatherSpec(entries[1..], version, acc');
      }
    }
  }

  /** The parameter dict of `encode_params` before its values are formatted. */
  function Collect(params: Params, version: Option<int>, extras: Option<Params>): (r: Result<Params, EncodeError>)
    ensures var entries := params + (if extras.Some? then extras.value else []);
            && (r.Failure? <==>
                  (version.None? && PlainFiltersIn(entries)) ||
                  (version.Some? && LastValue(entries, "filters").Some? && LastValue(entries, "filters").value.Plain?))
            && (r.Success? ==> "version" !in Keys(r.value))
            && (r.Success? ==> forall p :: p != "version" && p != "filters" ==> Get(r.value, p) == LastValue(entries, p))
            && (r.Success? && version.None? ==>
                  Get(r.value, "filters") ==
                    match LastValue(entries, "filters")
                    case Some(v) => Some(Processed("filters", v, None))
                    case None => None)
            && (r.Success? && version.None? && Get(r.value, "filters").Some? ==>
                  Get(r.value, "filters").value.Nested? &&
                  VersionField !in Keys(Get(r.value, "filters").value.entries))
            && (r.Success? && version.Some? ==>
                  && Get(r.value, "filters").Some? && Get(r.value, "filters").value.Nested?
                  && Get(Get(r.value, "filters").value.entries, VersionField) == Some(One(Num(version.value))))
            && (r.Success? && version.Some? && LastValue(entries, "filters").Some? ==>
                  forall f :: f != VersionField ==>
                    Get(Get(r.value, "filters").value.entries, f) == Get(LastValue(entries, "filters").value.entries, f))
  {
    var entries := params + (if extras.Some? then extras.value else []);
    GatherSpec(entries, version, []);
    match Gather(entries, version, [])
    case Failure(e) => Failure(e)
    case Success(qs) =>
      match version
      case None =>
        LastFiltersIsDict(entries);
        Success(qs)
      case Some(v) =>
        var current := Get(qs, "filters");
        if current.None? then Success(Put(qs, "filters", Nested([(VersionField, One(Num(v)))])))
        else if current.value.Nested? then
          Success(Put(qs, "filters", Nested(Put(current.value.entries, VersionField, One(Num(v))))))
        else Failure(FiltersNotADict)
  }

  /** The `(field, value)` pairs a filters dict stands for: a list value gives
      one pair per element, any other value one pair. */
  function Pairs(f: Filters): seq<(string, string)>
    decreases |f|
  {
    if |f| == 0 then []
    else
      var (field, value) := f[0];
      var here := match value
        case One(v) => [(field, ScalarText(v))]
        case Many(vs) => seq(|vs|, i requires 0 <= i < |vs| => (field, ScalarText(vs[i])));
      here + Pairs(f[1..])
  }

  /** `'{}:{}'.format(sub_key, v)`. */
  function PartText(pair: (string, string)): string
  {
    pair.0 + ":" + pair.1
  }

  /** The parts joined with `|` in the resource-view format. */
  function FilterParts(f: Filters): (parts: seq<string>)
    ensures |parts| == |Pairs(f)|
    ensures forall i :: 0 <= i < |parts| ==> parts[i] == PartText(Pairs(f)[i])
  {
    seq(|Pairs(f)|, i requires 0 <= i < |Pairs(f)| => PartText(Pairs(f)[i]))
  }

  /** A single-valued filter shows up among the pairs. */
  lemma {:induction false} PairOfSingleValue(f: Filters, field: string, v: Scalar)
    requires Get(f, field) == Some(One(v))
    ensures (field, ScalarText(v)) in Pairs(f)
    decreases |f|
  {
    if f[0].0 != field {
      PairOfSingleValue(f[1..], field, v);
    }
  }

  /** How one top-level value is formatted: dicts become JSON (through the
      serialiser `dumps`) or the `|`-joined parts; anything else is kept. */
  function FormatValue(v: ParamValue, forApi: bool, dumps: Filters -> string): Scalar
  {
    match v
    case Plain(s) => s
    case Nested(f) => Str(if forApi then dumps(f) else Text.Join(FilterParts(f), "|"))
  }

  /** The final loop of `encode_params`, before `urlencode`. */
  function Format(qs: Params, forApi: bool, dumps: Filters -> string): (r: Assoc<Scalar>)
    ensures Keys(r) == Keys(qs)
    ensures forall p :: Get(r, p) ==
              match Get(qs, p)
              case None => None
              case Some(v) => Some(FormatValue(v, forApi, dumps))
    decreases |qs|
  {
    if |qs| == 0 then []
    else
      var rest := Format(qs[1..], forApi, dumps);
      var r := [(qs[0].0, FormatValue(qs[0].1, forApi, dumps))] + rest;
      KeysCons(r[0], rest);
      KeysCons(qs[0], qs[1..]);
      assert r[1..] == rest;
      assert qs == [qs[0]] + qs[1..];
      r
  }

  /** `encode_params`: the query-string dictionary for a stored query. */
  function EncodeParams(params: Params, version: Option<int>, extras: Option<Params>,
                        forApi: bool, dumps: Filters -> string): (r: Result<Assoc<Scalar>, EncodeError>)
    ensures var entries := params + (if extras.Some? then extras.value else []);
            && (r.Failure? <==>
                  (version.None? && PlainFiltersIn(entries)) ||
                  (version.Some? && LastValue(entries, "filters").Some? && LastValue(entries, "filters").value.Plain?))
            && (r.Success? ==> "version" !in Keys(r.value))
            && (r.Success? ==> forall p :: p != "version" && p != "filters" ==>
                  Get(r.value, p) ==
                    match LastValue(entries, p)
                    case None => None
                    case Some(v) => Some(FormatValue(v, forApi, dumps)))
            && (r.Success? && version.Some? && !forApi ==>
                  && Get(r.value, "filters").Some? && Get(r.value, "filters").value.Str?
                  && exists at: nat :: Text.OccursAt(PartText((VersionField, Text.IntToString(version.value))),
                                                     Get(r.value, "filters").value.s, at))
    ensures r.Success? <==> Collect(params, version, extras).Success?
    ensures r.Success? ==> r.value == Format(Collect(params, version, extras).value, forApi, dumps)
  {
    var qs :- Collect(params, version, extras);
    var r := Format(qs, forApi, dumps);
    if version.Some? then
      VersionPartShown(Get(qs, "filters").value.entries, version.value);
      Success(r)
    else Success(r)
  }

  /** The `__version__:<v>` part is a substring of the joined filters text. */
  lemma VersionPartShown(f: Filters, v: int)
    requires Get(f, VersionField) == Some(One(Num(v)))
    ensures exists at: nat :: Text.OccursAt(PartText((VersionField, Text.IntToString(v))),
                                            Text.Join(FilterParts(f), "|"), at)
  {
    PairOfSingleValue(f, VersionField, Num(v));
    var pair := (VersionField, Text.IntToString(v));
    var k :| 0 <= k < |Pairs(f)| && Pairs(f)[k] == pair;
    Text.JoinContains(FilterParts(f), "|", k);
  }

  /** Splits one part at its first `:`, as a resource view reads it back. */
  function SplitPart(part: string): (string, string)
  {
    if ':' in part then
      var i := Text.IndexOf(part, ':');
      (part[..i], part[i + 1..])
    else (part, "")
  }

  /** Reads a `|`-joined filters value back into its pairs. */
  function DecodeFilters(s: string): seq<(string, string)>
  {
    var parts := Text.Split(s, '|');
    seq(|parts|, i requires 0 <= i < |parts| => SplitPart(parts[i]))
  }

  /** No field name holds `:` or `|` and no value text holds `|`. */
  predicate Encodable(pairs: seq<(string, string)>)
  {
    forall i :: 0 <= i < |pairs| ==> ':' !in pairs[i].0 && '|' !in pairs[i].0 && '|' !in pairs[i].1
  }

  lemma SplitPartText(pair: (string, string))
    requires ':' !in pair.0
    ensures SplitPart(PartText(pair)) == pair
  {
    var s := PartText(pair);
    Text.IndexOfUnique(s, ':', |pair.0|);
    assert s[..|pair.0|] == pair.0;
    assert s[|pair.0| + 1..] == pair.1;
  }

  /** The resource-view filters format is read back to the same pairs. */
  lemma FilterTextRoundTrip(f: Filters)
    requires |Pairs(f)| >= 1
    requires Encodable(Pairs(f))
    ensures DecodeFilters(Text.Join(FilterParts(f), "|")) == Pairs(f)
  {
    var parts := FilterParts(f);
    forall k | 0 <= k < |parts| ensures '|' !in parts[k] {
      assert parts[k] == Pairs(f)[k].0 + [':'] + Pairs(f)[k].1;
    }
    Text.SplitJoin(parts, '|');
    forall k | 0 <= k < |parts| ensures SplitPart(parts[k]) == Pairs(f)[k] {
      SplitPartText(Pairs(f)[k]);
    }
  }
}

=== FILE: stats.dfy ===
/** Anonymising a user's email address and recording a use of a DOI.
    bcrypt and the clock are inputs. */
module Stats {
  import opened Wrappers
  import opened Model
  import Text

  const DownloadAction: string := "download"

  /** The base64 digit of a 6-bit value (Table 1 of RFC 4648): `A`-`Z`,
      `a`-`z`, `0`-`9`, then `+` and `/`. */
  function B64(n: nat): char
    requires n < 64
  {
    if n < 26 then ('A' as int + n) as char
    else if n < 52 then ('a' as int + (n - 26)) as char
    else if n < 62 then ('0' as int + (n - 52)) as char
    else if n == 62 then '+' else '/'
  }

  /** The value of a base64 digit; `None` for any other character. */
  function Sextet(c: char): (r: Option<nat>)
    ensures r.Some? ==> r.value < 64 && B64(r.value) == c
  {
    if 'A' <= c <= 'Z' then Some(c as int - 'A' as int)
    else if 'a' <= c <= 'z' then Some(c as int - 'a' as int + 26)
    else if '0' <= c <= '9' then Some(c as int - '0' as int + 52)
    else if c == '+' then Some(62)
    else if c == '/' then Some(63)
    else None
  }

  /** A character of the base64 alphabet. */
  predicate IsBase64Char(c: char)
  {
    Sextet(c).Some?
  }

  /** Every digit is read back as its value, and no digit is the pad `=`. */
  lemma SextetOfB64(n: nat)
    requires n < 64
    ensures Sextet(B64(n)) == Some(n)
    ensures B64(n) != '='
  {
  }

  lemma AllB64Digits()
    ensures forall n: nat :: n < 64 ==> IsBase64Char(B64(n))
  {
    forall n: nat | n < 64
      ensures IsBase64Char(B64(n))
    {
      SextetOfB64(n);
    }
  }

  /** The four 6-bit groups of three bytes. */
  function Sextets(b0: nat, b1: nat, b2: nat): (r: seq<nat>)
    requires b0 < 256 && b1 < 256 && b2 < 256
    ensures |r| == 4 && forall i :: 0 <= i < 4 ==> r[i] < 64
  {
    var s1 := (b0 % 4) * 16 + b1 / 16;
    var s2 := (b1 % 16) * 4 + b2 / 64;
    assert s1 < 64 && s2 < 64;
    [b0 / 4, s1, s2, b2 % 64]
  }

  function Chars(sx: seq<nat>, n: nat): (r: string)
    requires n <= |sx| && forall i :: 0 <= i < |sx| ==> sx[i] < 64
    ensures |r| == n && forall i :: 0 <= i < n ==> IsBase64Char(r[i])
  {
    AllB64Digits();
    seq(n, i requires 0 <= i < n => B64(sx[i]))
  }

  /** `base64.b64encode` of a byte string (standard alphabet, `=` padding). */
  function Base64(bytes: seq<nat>): (r: string)
    requires forall i :: 0 <= i < |bytes| ==> bytes[i] < 256
    ensures |r| == 4 * ((|bytes| + 2) / 3)
    decreases |bytes|
  {
    if |bytes| == 0 then ""
    else if |bytes| == 1 then Chars(Sextets(bytes[0], 0, 0), 2) + "=="
    else if |bytes| == 2 then Chars(Sextets(bytes[0], bytes[1], 0), 3) + "="
    else Chars(Sextets(bytes[0], bytes[1], bytes[2]), 4) + Base64(bytes[3..])
  }

  /** The encoding is alphabet characters, padded with `=` only in the last
      group. */
  lemma {:induction false} Base64Chars(bytes: seq<nat>)
    requires forall i :: 0 <= i < |bytes| ==> bytes[i] < 256
    ensures var r := Base64(bytes);
            && (forall i :: 0 <= i < 4 * (|bytes| / 3) ==> IsBase64Char(r[i]))
            && (forall i :: 0 <= i < |r| ==> IsBase64Char(r[i]) || r[i] == '=')
    decreases |bytes|
  {
    if 1 <= |bytes| <= 2 {
      Base64Short(bytes);
    } else if |bytes| >= 3 {
      var group := Chars(Sextets(bytes[0], bytes[1], bytes[2]), 4);
      var rest := Base64(bytes[3..]);
      Base64Chars(bytes[3..]);
      var r := group + rest;
      Base64Unfold(bytes);
      assert forall i :: 0 <= i < 4 ==> r[i] == group[i];
      assert forall i :: 4 <= i < |r| ==> r[i] == rest[i - 4];
      assert 4 * (|bytes| / 3) == 4 + 4 * (|bytes[3..]| / 3);
    }
  }

  /** Three bytes are recovered from their four 6-bit groups. */
  lemma SextetsRecover(b0: nat, b1: nat, b2: nat)
    requires b0 < 256 && b1 < 256 && b2 < 256
    ensures var sx := Sextets(b0, b1, b2);
            && sx[0] * 4 + sx[1] / 16 == b0
            && (sx[1] % 16) * 16 + sx[2] / 4 == b1
            && (sx[2] % 4) * 64 + sx[3] == b2
  {
    var hi1, lo1 := b1 / 16, b1 % 16;
    var hi2, lo2 := b2 / 64, b2 % 64;
    assert ((b0 % 4) * 16 + hi1) / 16 == b0 % 4 && ((b0 % 4) * 16 + hi1) % 16 == hi1;
    assert (lo1 * 4 + hi2) / 4 == lo1 && (lo1 * 4 + hi2) % 4 == hi2;
  }

  /** One group of four characters decoded: two, three or four digits, the
      short forms padded with `=`. */
  function DecodeGroup(g: string): Option<seq<nat>>
    requires |g| == 4
  {
    var a, b, c, d := Sextet(g[0]), Sextet(g[1]), Sextet(g[2]), Sextet(g[3]);
    if a.None? || b.None? then None
    else if g[2] == '=' && g[3] == '=' then Some([a.value * 4 + b.value / 16])
    else if c.None? then None
    else if g[3] == '=' then Some([a.value * 4 + b.value / 16, (b.value % 16) * 16 + c.value / 4])
    else if d.None? then None
    else Some([a.value * 4 + b.value / 16, (b.value % 16) * 16 + c.value / 4, (c.value % 4) * 64 + d.value])
  }

  /** Base64 decoding (`base64.b64decode` of well-formed input), the inverse
      the encoder is checked against; padding may only end the text. */
  function Unbase64(s: string): Option<seq<nat>>
    decreases |s|
  {
    if |s| == 0 then Some([])
    else if |s| < 4 then None
    else
      var g := DecodeGroup(s[..4]);
      if g.None? || (|g.value| < 3 && |s| > 4) then None
      else
        var rest := Unbase64(s[4..]);
        if rest.None? then None else Some(g.value + rest.value)
  }

  /** The last group when one byte is left over. */
  lemma DecodeOneLeft(b0: nat)
    requires b0 < 256
    ensures Unbase64(Chars(Sextets(b0, 0, 0), 2) + "==") == Some([b0])
  {
    var sx := Sextets(b0, 0, 0);
    SextetsRecover(b0, 0, 0);
    SextetOfB64(sx[0]); SextetOfB64(sx[1]);
    var g := Chars(sx, 2) + "==";
    assert g[..4] == g && g[4..] == [];
    assert DecodeGroup(g[..4]) == Some([b0]);
    assert Unbase64(g[4..]) == Some([]) && [b0] + [] == [b0];
  }

  /** The last group when two bytes are left over. */
  lemma DecodeTwoLeft(b0: nat, b1: nat)
    requires b0 < 256 && b1 < 256
    ensures Unbase64(Chars(Sextets(b0, b1, 0), 3) + "=") == Some([b0, b1])
  {
    var sx := Sextets(b0, b1, 0);
    SextetsRecover(b0, b1, 0);
    SextetOfB64(sx[0]); SextetOfB64(sx[1]); SextetOfB64(sx[2]);
    var g := Chars(sx, 3) + "=";
    assert g[..4] == g && g[4..] == [];
    assert g[2] == B64(sx[2]) && g[3] == '=';
    assert DecodeGroup(g[..4]) == Some([b0, b1]);
    assert Unbase64(g[4..]) == Some([]) && [b0, b1] + [] == [b0, b1];
  }

  /** A full group followed by more text. */
  lemma DecodeFullGroup(b0: nat, b1: nat, b2: nat, rest: string)
    requires b0 < 256 && b1 < 256 && b2 < 256
    ensures Unbase64(Chars(Sextets(b0, b1, b2), 4) + rest) ==
              (if Unbase64(rest).None? then None else Some([b0, b1, b2] + Unbase64(rest).value))
  {
    var sx := Sextets(b0, b1, b2);
    SextetsRecover(b0, b1, b2);
    SextetOfB64(sx[0]); SextetOfB64(sx[1]); SextetOfB64(sx[2]); SextetOfB64(sx[3]);
    var group := Chars(sx, 4);
    assert (group + rest)[..4] == group && (group + rest)[4..] == rest;
    assert DecodeGroup(group) == Some([b0, b1, b2]);
  }

  /** The round trip for a single byte. */
  lemma RoundTripOne(b0: nat)
    requires b0 < 256
    ensures Unbase64(Base64([b0])) == Some([b0])
  {
    assert Base64([b0]) == Chars(Sextets(b0, 0, 0), 2) + "==";
    DecodeOneLeft(b0);
  }

  /** The round trip for two bytes. */
  lemma RoundTripTwo(b0: nat, b1: nat)
    requires b0 < 256 && b1 < 256
    ensures Unbase64(Base64([b0, b1])) == Some([b0, b1])
  {
    assert Base64([b0, b1]) == Chars(Sextets(b0, b1, 0), 3) + "=";
    DecodeTwoLeft(b0, b1);
  }

  /** One or two bytes encode as one padded group. */
  lemma Base64Short(bytes: seq<nat>)
    requires 1 <= |bytes| <= 2 && forall i :: 0 <= i < |bytes| ==> bytes[i] < 256
    ensures |bytes| == 1 ==> Base64(bytes) == Chars(Sextets(bytes[0], 0, 0), 2) + "=="
    ensures |bytes| == 2 ==> Base64(bytes) == Chars(Sextets(bytes[0], bytes[1], 0), 3) + "="
    ensures forall i :: 0 <= i < |Base64(bytes)| ==> IsBase64Char(Base64(bytes)[i]) || Base64(bytes)[i] == '='
  {
    var r := Base64(bytes);
    AllB64Digits();
    if |bytes| == 1 {
      var g := Chars(Sextets(bytes[0], 0, 0), 2);
      assert forall i :: 2 <= i < 4 ==> (g + "==")[i] == '=';
    } else {
      var g := Chars(Sextets(bytes[0], bytes[1], 0), 3);
      assert (g + "=")[3] == '=';
    }
  }

  /** Three or more bytes encode as one full group and the rest. */
  lemma Base64Unfold(bytes: seq<nat>)
    requires |bytes| >= 3 && forall i :: 0 <= i < |bytes| ==> bytes[i] < 256
    ensures Base64(bytes) == Chars(Sextets(bytes[0], bytes[1], bytes[2]), 4) + Base64(bytes[3..])
  {
  }

  lemma SplitThree<T>(s: seq<T>)
    requires |s| >= 3
    ensures [s[0], s[1], s[2]] + s[3..] == s
  {
    assert forall i :: 0 <= i < |s| ==> ([s[0], s[1], s[2]] + s[3..])[i] == s[i];
  }

  /** The round trip extends by one full group in front. */
  lemma RoundTripCons(bytes: seq<nat>)
    requires |bytes| >= 3 && forall i :: 0 <= i < |bytes| ==> bytes[i] < 256
    requires Unbase64(Base64(bytes[3..])) == Some(bytes[3..])
    ensures Unbase64(Base64(bytes)) == Some(bytes)
  {
    Base64Unfold(bytes);
    DecodeFullGroup(bytes[0], bytes[1], bytes[2], Base64(bytes[3..]));
    SplitThree(bytes);
  }

  /** Decoding the encoding gives the bytes back. */
  lemma {:induction false} Base64RoundTrip(bytes: seq<nat>)
    requires forall i :: 0 <= i < |bytes| ==> bytes[i] < 256
    ensures Unbase64(Base64(bytes)) == Some(bytes)
    decreases |bytes|
  {
    if |bytes| == 1 {
      assert bytes == [bytes[0]];
      RoundTripOne(bytes[0]);
    } else if |bytes| == 2 {
      assert bytes == [bytes[0], bytes[1]];
      RoundTripTwo(bytes[0], bytes[1]);
    } else if |bytes| >= 3 {
      Base64RoundTrip(bytes[3..]);
      RoundTripCons(bytes);
    }
  }

  /** The character codes of an ASCII string; `None` when a character is not
      ASCII (Python 2's implicit ASCII encoding of a `unicode` argument). */
  function AsciiCodes(s: string): (r: Option<seq<nat>>)
    ensures r.Some? <==> forall i :: 0 <= i < |s| ==> s[i] as int < 128
    ensures r.Some? ==> |r.value| == |s| && forall i :: 0 <= i < |s| ==> r.value[i] == s[i] as int
  {
    if forall i :: 0 <= i < |s| ==> s[i] as int < 128 then
      Some(seq(|s|, i requires 0 <= i < |s| => s[i] as int))
    else None
  }

  /** The domain: the text after the first `@`, or the whole address when there is none. */
  function Domain(address: string): (d: string)
    ensures '@' in address ==>
              exists i :: 0 <= i < |address| && address[i] == '@' &&
                (forall j :: 0 <= j < i ==> address[j] != '@') && d == address[i + 1..]
    ensures '@' !in address ==> d == address
  {
    if '@' in address then address[Text.IndexOf(address, '@') + 1..] else address
  }

  predicate IsAscii(s: string)
  {
    forall i :: 0 <= i < |s| ==> s[i] as int < 128
  }

  /** Zero padding adds only ASCII characters. */
  lemma ZFillKeepsAscii(s: string, width: nat)
    ensures IsAscii(Text.ZFill(s, width)) <==> IsAscii(s)
  {
    var z := Text.ZFill(s, width);
    if |s| < width {
      var n := width - |s|;
      if |s| > 0 && (s[0] == '+' || s[0] == '-') {
        assert z == [s[0]] + Text.Zeros(n) + s[1..];
        assert forall i :: 1 <= i < |s| ==> z[n + i] == s[i];
        assert z[0] == s[0];
      } else {
        assert z == Text.Zeros(n) + s;
        assert forall i :: 0 <= i < |s| ==> z[n + i] == s[i];
      }
    }
  }

  /** The first 22 characters of the encoding of 18 or more bytes are all
      alphabet characters. */
  lemma SaltDigits(codes: seq<nat>)
    requires |codes| >= 18 && forall i :: 0 <= i < |codes| ==> codes[i] < 256
    ensures |Base64(codes)| >= 24 && forall i :: 0 <= i < 22 ==> IsBase64Char(Base64(codes)[i])
  {
    Base64Chars(codes);
    assert 4 * (|codes| / 3) >= 24;
  }

  const SaltPrefix: string := "$2b$12$"

  datatype StatsError = NonAsciiDomain  // UnicodeEncodeError inside b64encode

  /** The bcrypt salt: `$2b$12$` and the first 22 characters of the base64 of
      the domain left-padded with `0` to at least 18 characters. */
  function Salt(domain: string): (r: Result<string, StatsError>)
    ensures r.Failure? <==> exists i :: 0 <= i < |domain| && domain[i] as int >= 128
    ensures r.Success? ==> |r.value| == 29 && Text.StartsWith(r.value, SaltPrefix)
    ensures r.Success? ==> forall i :: 7 <= i < 29 ==> IsBase64Char(r.value[i])
    ensures r.Success? ==> r.value[7..] == Base64(AsciiCodes(Text.ZFill(domain, 18)).value)[..22]
  {
    var padded := Text.ZFill(domain, 18);
    ZFillKeepsAscii(domain, 18);
    match AsciiCodes(padded)
    case None => Failure(NonAsciiDomain)
    case Some(codes) =>
      var encoded := Base64(codes);
      SaltDigits(codes);
      var salt := SaltPrefix + encoded[..22];
      assert forall i :: 7 <= i < 29 ==> salt[i] == encoded[i - 7];
      assert salt[7..] == encoded[..22];
      Success(salt)
  }

  /** `anonymize_email`: `(bcrypt hash of the lower-cased address, domain)`;
      `hashpw` stands for `bcrypt.hashpw`. */
  function AnonymizeEmail(address: string, hashpw: (string, string) -> string): (r: Result<(string, string), StatsError>)
    ensures Salt(Domain(Text.Lower(address))).Failure? <==> r.Failure?
    ensures r.Success? ==>
              && r.value.1 == Domain(Text.Lower(address))
              && r.value.0 == hashpw(Text.Lower(address), Salt(r.value.1).value)
  {
    var lowered := Text.Lower(address);
    var domain := Domain(lowered);
    match Salt(domain)
    case Failure(e) => Failure(e)
    case Success(salt) => Success((hashpw(lowered, salt), domain))
  }

  /** Addresses that differ only in letter case are anonymised identically. */
  lemma AnonymizeIgnoresCase(a: string, b: string, hashpw: (string, string) -> string)
    requires Text.Lower(a) == Text.Lower(b)
    ensures AnonymizeEmail(a, hashpw) == AnonymizeEmail(b, hashpw)
  {
  }

  /** Addresses with the same domain are hashed with the same salt. */
  lemma SameDomainSameSalt(a: string, b: string)
    requires Domain(Text.Lower(a)) == Domain(Text.Lower(b))
    ensures Salt(Domain(Text.Lower(a))) == Salt(Domain(Text.Lower(b)))
  {
  }

  /** The salt of an ASCII domain always exists and has bcrypt's 29 characters. */
  lemma AsciiDomainSalt(domain: string)
    requires forall i :: 0 <= i < |domain| ==> domain[i] as int < 128
    ensures Salt(domain).Success? && |Salt(domain).value| == 29
  {
  }

  /** `record_stat`: a stat row for the DOI with the action and the anonymised
      address, appended to the stats table. */
  function RecordStat(stats: seq<QueryDoiStat>, queryDoi: QueryDoi, action: string, address: string,
                      now: int, hashpw: (string, string) -> string): (r: Result<(QueryDoiStat, seq<QueryDoiStat>), StatsError>)
    ensures r.Failure? <==> AnonymizeEmail(address, hashpw).Failure?
    ensures r.Success? ==>
              var anon := AnonymizeEmail(address, hashpw).value;
              && r.value.0 == QueryDoiStat(queryDoi.doi, Some(action), Some(anon.1), Some(anon.0), now)
              && r.value.1 == InsertStat(stats, r.value.0)
              && StatCount(r.value.1, queryDoi.doi) == StatCount(stats, queryDoi.doi) + 1
  {
    match AnonymizeEmail(address, hashpw)
    case Failure(e) => Failure(e)
    case Success((identifier, domain)) =>
      var stat := QueryDoiStat(queryDoi.doi, Some(action), Some(domain), Some(identifier), now);
      Success((stat, InsertStat(stats, stat)))
  }
}

=== FILE: text.dfy ===
/** String operations the Python code takes from `str`: find, split, join,
    lower, zfill, integer formatting and code-point ordering. */
module Text {

  /** Index of the first occurrence of `c` in `s` (`str.index`, `list.index`). */
  function IndexOf<T(==)>(s: seq<T>, c: T): (i: nat)
    requires c in s
    ensures i < |s| && s[i] == c
    ensures forall j :: 0 <= j < i ==> s[j] != c
  {
    if s[0] == c then 0 else 1 + IndexOf(s[1..], c)
  }

  /** The first occurrence is the only index with `c` and no earlier `c`. */
  lemma IndexOfUnique<T>(s: seq<T>, c: T, i: nat)
    requires i < |s| && s[i] == c
    requires forall j :: 0 <= j < i ==> s[j] != c
    ensures IndexOf(s, c) == i
  {
  }

  /** `s.split(c)`: the pieces between occurrences of `c`, never empty. */
  function Split(s: string, c: char): (parts: seq<string>)
    ensures |parts| >= 1
    ensures forall k :: 0 <= k < |parts| ==> c !in parts[k]
    decreases |s|
  {
    if c !in s then [s]
    else
      var i := IndexOf(s, c);
      [s[..i]] + Split(s[i + 1..], c)
  }

  /** `sep.join(parts)`. */
  function Join(parts: seq<string>, sep: string): string
  {
    if |parts| == 0 then ""
    else if |parts| == 1 then parts[0]
    else parts[0] + sep + Join(parts[1..], sep)
  }

  /** Splitting and joining back with the same character is the identity. */
  lemma {:induction false} JoinSplit(s: string, c: char)
    ensures Join(Split(s, c), [c]) == s
    decreases |s|
  {
    if c in s {
      var i := IndexOf(s, c);
      JoinSplit(s[i + 1..], c);
      var rest := Split(s[i + 1..], c);
      assert Split(s, c) == [s[..i]] + rest;
      assert ([s[..i]] + rest)[1..] == rest;
      assert s == s[..i] + [c] + s[i + 1..];
    }
  }

  /** Joining pieces that do not contain `c` and splitting again gives the pieces back. */
  lemma {:induction false} SplitJoin(parts: seq<string>, c: char)
    requires |parts| >= 1
    requires forall k :: 0 <= k < |parts| ==> c !in parts[k]
    ensures Split(Join(parts, [c]), c) == parts
  {
    if |parts| > 1 {
      var head := parts[0];
      var tail := Join(parts[1..], [c]);
      var s := head + [c] + tail;
      assert Join(parts, [c]) == s;
      SplitAtFirst(head, c, tail);
      SplitJoin(parts[1..], c);
      assert parts == [head] + parts[1..];
    }
  }

  /** Splitting `head + c + tail` where `head` has no `c` peels off `head`. */
  lemma SplitAtFirst(head: string, c: char, tail: string)
    requires c !in head
    ensures Split(head + [c] + tail, c) == [head] + Split(tail, c)
  {
    var s := head + [c] + tail;
    var i := |head|;
    assert s[i] == c;
    assert forall j :: 0 <= j < i ==> s[j] == head[j];
    IndexOfUnique(s, c, i);
    assert s[..i] == head;
    assert s[i + 1..] == tail;
  }

  /** True when `sub` occurs in `s` starting at position `at`. */
  predicate OccursAt(sub: string, s: string, at: nat)
  {
    at + |sub| <= |s| && s[at..at + |sub|] == sub
  }

  /** Every piece of a join occurs in the joined text. */
  lemma {:induction false} JoinContains(parts: seq<string>, sep: string, k: nat)
    requires k < |parts|
    ensures exists at: nat :: OccursAt(parts[k], Join(parts, sep), at)
  {
    var j := Join(parts, sep);
    if k == 0 {
      assert OccursAt(parts[0], j, 0);
    } else {
      JoinContains(parts[1..], sep, k - 1);
      var at: nat :| OccursAt(parts[1..][k - 1], Join(parts[1..], sep), at);
      var off := |parts[0]| + |sep|;
      assert j == parts[0] + sep + Join(parts[1..], sep);
      assert j[off + at..off + at + |parts[k]|] == Join(parts[1..], sep)[at..at + |parts[k]|];
      assert OccursAt(parts[k], j, off + at);
    }
  }

  predicate StartsWith(s: string, prefix: string)
  {
    |prefix| <= |s| && s[..|prefix|] == prefix
  }

  predicate EndsWith(s: string, suffix: string)
  {
    |suffix| <= |s| && s[|s| - |suffix|..] == suffix
  }

  /** ASCII case mapping of `str.lower()`. */
  function LowerChar(c: char): char
  {
    if 'A' <= c <= 'Z' then (c as int - 'A' as int + 'a' as int) as char else c
  }

  function Lower(s: string): (r: string)
    ensures |r| == |s|
    ensures forall i :: 0 <= i < |s| ==> r[i] == LowerChar(s[i])
  {
    seq(|s|, i requires 0 <= i < |s| => LowerChar(s[i]))
  }

  /** Lower-casing twice changes nothing further. */
  lemma LowerIdempotent(s: string)
    ensures Lower(Lower(s)) == Lower(s)
  {
  }

  function Zeros(n: nat): (r: string)
    ensures |r| == n
    ensures forall i :: 0 <= i < n ==> r[i] == '0'
  {
    seq(n, _ => '0')
  }

  /** `s.zfill(width)`: pad on the left with `0` up to `width`, keeping a
      leading sign character in front of the padding. */
  function ZFill(s: string, width: nat): (r: string)
    ensures |r| == if |s| >= width then |s| else width
    ensures |s| >= width ==> r == s
    ensures |s| < width && (|s| == 0 || (s[0] != '+' && s[0] != '-')) ==>
              r == Zeros(width - |s|) + s
    ensures |s| < width && |s| > 0 && (s[0] == '+' || s[0] == '-') ==>
              r == [s[0]] + Zeros(width - |s|) + s[1..]
  {
    if |s| >= width then s
    else if |s| > 0 && (s[0] == '+' || s[0] == '-') then [s[0]] + Zeros(width - |s|) + s[1..]
    else Zeros(width - |s|) + s
  }

  predicate IsDigit(c: char)
  {
    '0' <= c <= '9'
  }

  function DigitChar(d: nat): (c: char)
    requires d < 10
    ensures IsDigit(c)
  {
    ('0' as int + d) as char
  }

  /** Decimal text of a natural number, as `'{}'.format(n)` writes it. */
  function NatToString(n: nat): (r: string)
    ensures |r| >= 1
    ensures forall i :: 0 <= i < |r| ==> IsDigit(r[i])
    decreases n
  {
    if n < 10 then [DigitChar(n)] else NatToString(n / 10) + [DigitChar(n % 10)]
  }

  function IntToString(n: int): string
  {
    if n < 0 then "-" + NatToString(-n) else NatToString(n)
  }

  /** Value of a run of decimal digits. */
  function ParseDigits(s: string): nat
    requires forall i :: 0 <= i < |s| ==> IsDigit(s[i])
  {
    if |s| == 0 then 0
    else
      assert IsDigit(s[|s| - 1]);
      ParseDigits(s[..|s| - 1]) * 10 + (s[|s| - 1] as int - '0' as int)
  }

  /** The decimal text reads back as the number it was made from. */
  lemma {:induction false} NatToStringRoundTrip(n: nat)
    ensures ParseDigits(NatToString(n)) == n
    decreases n
  {
    if n >= 10 {
      NatToStringRoundTrip(n / 10);
      var s := NatToString(n);
      assert s[..|s| - 1] == NatToString(n / 10);
    }
  }

  /** Python's ordering of `unicode` values: lexicographic by code point. */
  predicate Below(a: string, b: string)
  {
    if |a| == 0 then |b| > 0
    else if |b| == 0 then false
    else if a[0] != b[0] then a[0] < b[0]
    else Below(a[1..], b[1..])
  }

  lemma {:induction false} BelowIrreflexive(a: string)
    ensures !Below(a, a)
  {
    if |a| > 0 {
      BelowIrreflexive(a[1..]);
    }
  }

  lemma {:induction false} BelowTransitive(a: string, b: string, c: string)
    requires Below(a, b) && Below(b, c)
    ensures Below(a, c)
  {
    if |a| > 0 && |b| > 0 && |c| > 0 && a[0] == b[0] && b[0] == c[0] {
      BelowTransitive(a[1..], b[1..], c[1..]);
    }
  }

  lemma {:induction false} BelowTotal(a: string, b: string)
    requires a != b
    ensures Below(a, b) || Below(b, a)
  {
    if |a| > 0 && |b| > 0 && a[0] == b[0] {
      assert a == [a[0]] + a[1..] && b == [b[0]] + b[1..];
      BelowTotal(a[1..], b[1..]);
    }
  }

  lemma BelowAsymmetric(a: string, b: string)
    requires Below(a, b)
    ensures !Below(b, a)
  {
    if Below(b, a) {
      BelowTransitive(a, b, a);
      BelowIrreflexive(a);
    }
  }
}

=== FILE: wrappers.dfy ===
/** Optional values and results with an error alternative, used wherever the
    Python code returns None or raises. */
module Wrappers {

  datatype Option<+T> = None | Some(value: T)

  /** Either a value or the error the Python code would raise instead. */
  datatype Result<+T, +E> = Success(value: T) | Failure(error: E) {

    predicate IsFailure() {
      Failure?
    }

    function PropagateFailure<U>(): Result<U, E>
      requires Failure?
    {
      Failure(error)
    }

    function Extract(): T
      requires Success?
    {
      value
    }
  }
}
